=== FILE: README.md ===
# MID 0215 and two message-family dispatch chains, modelled in Dafny

This project models three parts of OpenProtocolInterpreter, a C# library for the
Open Protocol used by tightening controllers:

- **MID 0215, "IO device status reply"** (`IoDeviceLayout`, `IoDeviceStatus`).
  The message has two revisions:
  - Revision 1 is a fixed table: a 2-digit device id, then a 32-character relay list,
    then a 32-character digital-input list.
  - Revision 2 adds a 2-digit count in front of each list. The count sizes its list as
    count × 4 characters, and the fields behind it move.

  The message object is the class `IoDeviceStatus.Mid0215`. Its per-revision field lists
  are arrays that `Pack` and `Parse` update in place. Its header and its relay and
  digital-input lists are fields that the methods reassign. Every method that succeeds is
  proved to leave the object in the state that a pure function of `IoDeviceLayout`
  describes: `PackState`, `PackOutput` or `ParseSpec`. A failed parse step leaves the object
  valid, but its state is not specified (see "## Left out"). The properties are proved
  about those functions.
- **The 20-character header** (`Header`): length, MID, revision and nine routing
  characters. It is modelled with what the message code relies on: packing and
  reading the header, and routing on the MID.
- **The fixed-width integer and item-list converters** (`Text`, `ItemLists`). Counts and
  the device id are written as zero-padded decimal text. Relays and digital inputs are
  4-character items.
- **Dispatch chains** (`Dispatch`, `AutomaticManualMode`, `Communication`). A chain of
  templates hands a package to the first template whose MID matches. The
  automatic/manual-mode family has a six-template chain and accepts a package as text or
  as bytes. The communication family has a four-template chain.

Pack writes each field behind a two-digit ordinal (01, 02, …). The declared indexes of
the revision-1 table (20, 24, 58) are therefore where Pack writes the ordinals, and each
value starts two characters later (`Rev1DeclaredIndexesMarkOrdinals`).

Parse reads each field as the `size` characters at its `index`. The main model keeps
these two behaviours of the code:
- Parse moves the digital-input list two characters on from its own previous index,
  not from the count field. The list then runs to the end of the package
  (MID_0215.cs:103-104; Pack uses :67-68).
- A revision-1 Parse decodes the relay and digital-input lists from the revision-2 list
  fields (:93-94, :110-111).

So Parse is not the inverse of Pack. With fields looked up by id, as in the main model (see
below), the model proves that it is not, for every revision-2 message
(`PackThenParseGainsInputs`, under "## Findings"). Beyond that, it proves:
- where Pack puts every field;
- what Parse reads;
- how the recomputed indexes lag behind Pack's ordinals (`Rev2RecomputedIndexesLag`);
- how repeated revision-2 parses keep shifting the digital-input list
  (`ParseInputIndexDrift`).

Both Pack and Parse look up fields with `RevisionsByFields[2][(int)DataFields.X]`, an
index into the revision-2 list by the enumeration value. The main model, including the
class `Mid0215`, finds the field whose id is `X` instead. The positional lookup as written
is modelled separately for both Pack and Parse (the `…Positional` members), under
"## Findings".

## Model

| member | source | states |
|---|---|---|
| `IoDeviceLayout.RegisterDatafields` | src/OpenProtocolInterpreter/IOInterface/MID_0215.cs:118-141 | Only revisions 1 and 2 have a table. Each table lists its fields in the declared order. Revision 1 is contiguous at 20, 24, 58 (ordinal + size apart). Revision 2's first three fields are placed the same way, and both of its lists start empty. Every value starts empty. |
| `IoDeviceLayout.Position` | src/OpenProtocolInterpreter/IOInterface/MID_0215.cs:143-151 | Lookup by field id finds the first entry carrying that id, and no earlier entry carries it. |
| `IoDeviceLayout.PositionsByName` | src/OpenProtocolInterpreter/IOInterface/MID_0215.cs:123-138 | In lists shaped like the registered tables, each named field is at the position the model's constants use. |
| `IoDeviceLayout.SetInt` | src/OpenProtocolInterpreter/IOInterface/MID_0215.cs:28-45 | Writing an integer into a field changes only that field's text. |
| `IoDeviceLayout.SetIntReadsBack` | src/OpenProtocolInterpreter/IOInterface/MID_0215.cs:36-45 | An integer written with no padding or with '0' padding reads back as itself. With '0' padding, a number narrower than the field fills it exactly. |
| `IoDeviceLayout.GetValue` | src/OpenProtocolInterpreter/IOInterface/MID_0215.cs:107-108 | A field's slice exists exactly when index and size are non-negative and it ends inside the package. The slice is then as wide as the field. |
| `IoDeviceLayout.Initial` | src/OpenProtocolInterpreter/IOInterface/MID_0215.cs:47-51 | A new message of a given revision is well-formed, has that revision and empty relay and digital-input lists, and holds the registered revision-1 and revision-2 tables. |
| `IoDeviceLayout.WithIoDeviceId` | src/OpenProtocolInterpreter/IOInterface/MID_0215.cs:28-32 | Setting the device id succeeds exactly for revisions 1 and 2, and keeps the object well-formed. Only the device entry of the current revision's list changes, to the id's text. The header, the relay and digital-input lists, the other entries and the other revision's list stay as they were. |
| `IoDeviceLayout.IoDeviceIdOf` | src/OpenProtocolInterpreter/IOInterface/MID_0215.cs:30 | The getter yields a number exactly for revisions 1 and 2 when the device field of that revision's list holds digits. |
| `IoDeviceLayout.IoDeviceIdReadsBack` | src/OpenProtocolInterpreter/IOInterface/MID_0215.cs:28-32 | The getter returns what the setter wrote. An id below 100 fills its two characters. |
| `IoDeviceLayout.Rev2PackLayout` | src/OpenProtocolInterpreter/IOInterface/MID_0215.cs:57-69 | The revision-2 layout keeps the five fields in their order. |
| `IoDeviceLayout.Rev1PackLayout` | src/OpenProtocolInterpreter/IOInterface/MID_0215.cs:71-76 | The revision-1 layout keeps the three fields in their order. |
| `IoDeviceLayout.Rev2PackCountsAndSizes` | src/OpenProtocolInterpreter/IOInterface/MID_0215.cs:59-68 | The counts read back as the list lengths, 2 characters wide below 100. Each list field's size equals the width of its text, 4 per item. That text decodes back to the list. The device field and the relay list's index are untouched. |
| `IoDeviceLayout.Rev2PackShift` | src/OpenProtocolInterpreter/IOInterface/MID_0215.cs:65-67 | The digital-input count follows the relay list, and its list is 2 characters after it. Changing the relay count moves both by 4 characters per relay. |
| `IoDeviceLayout.Rev1PackKeepsTable` | src/OpenProtocolInterpreter/IOInterface/MID_0215.cs:71-76 | Revision-1 Pack keeps every index, every size and the device field. Its list texts decode back to the relay and digital-input lists. |
| `IoDeviceLayout.PackState` | src/OpenProtocolInterpreter/IOInterface/MID_0215.cs:57-76 | After Pack, the object is well-formed and its item lists are unchanged. A revision of at most 1 becomes 1, and nothing else in the header changes. |
| `IoDeviceLayout.PackedFields` | src/OpenProtocolInterpreter/IOInterface/MID_0215.cs:78-85 | The list Pack writes has fewer than 100 fields, so every ordinal has two digits. |
| `IoDeviceLayout.PackOutputFrames` | src/OpenProtocolInterpreter/IOInterface/MID_0215.cs:78-86 | For revisions with a list, Pack returns the header followed by the body written from the laid-out list. When the routing characters and the total length fit the header, the package is 20 characters longer than the body, which follows column 20. The package's header reads back as the object's header, with revision 1 or 2 and the package's own length, and the package routes to MID 0215. |
| `IoDeviceLayout.Frame` | src/OpenProtocolInterpreter/IOInterface/MID_0215.cs:78 | The package ends with the body. With the length field in range, it is exactly 20 header characters longer than the body. |
| `IoDeviceLayout.PackOutput` | src/OpenProtocolInterpreter/IOInterface/MID_0215.cs:55-86 | Pack yields a package exactly when the revision is at most 2, and otherwise fails as an unsupported revision. |
| `IoDeviceLayout.FrameRoutesBack` | src/OpenProtocolInterpreter/IOInterface/MID_0215.cs:78 | A packed message's length field is its length, and its header reads back. It routes to its own MID, and the body follows the 20 header characters. |
| `IoDeviceLayout.Body` | src/OpenProtocolInterpreter/IOInterface/MID_0215.cs:79-85 | The loop writes each field as its ordinal then its value, so the body is empty exactly when there are no fields. |
| `IoDeviceLayout.BodyLength` | src/OpenProtocolInterpreter/IOInterface/MID_0215.cs:79-85 | The body's length is the sum of 2 + the value's width over the fields. |
| `IoDeviceLayout.BodyPrefix` | src/OpenProtocolInterpreter/IOInterface/MID_0215.cs:79-85 | Writing fewer fields gives a prefix of the body, so the loop only appends. |
| `IoDeviceLayout.FieldPlacement` | src/OpenProtocolInterpreter/IOInterface/MID_0215.cs:79-85 | Field k sits after the fields before it: its ordinal k+1 first, then its value. |
| `IoDeviceLayout.FieldBehindHeader` | src/OpenProtocolInterpreter/IOInterface/MID_0215.cs:78-85 | The same placement, measured in the package behind a 20-character header. |
| `IoDeviceLayout.WireWidthStep` | src/OpenProtocolInterpreter/IOInterface/MID_0215.cs:79-85 | Each field advances the write position by its ordinal and its value. |
| `IoDeviceLayout.Rev1DeclaredIndexesMarkOrdinals` | src/OpenProtocolInterpreter/IOInterface/MID_0215.cs:123-128 | With full revision-1 lists, each declared index is where Pack writes that field's ordinal, and the value of the declared size follows 2 characters later. |
| `IoDeviceLayout.Rev2RecomputedIndexesLag` | src/OpenProtocolInterpreter/IOInterface/MID_0215.cs:65-67 | In revision 2, the relay list's index marks its ordinal. The digital-input count's ordinal is 2 characters past its recomputed index, and the list's ordinal is 4 past. |
| `IoDeviceLayout.Rev2OrdinalsBehindHeader` | src/OpenProtocolInterpreter/IOInterface/MID_0215.cs:79-85 | For any five-field list laid out as Pack lays it out, the ordinals 03, 04 and 05 are at those offsets. |
| `IoDeviceLayout.Rev2PackExample` | src/OpenProtocolInterpreter/IOInterface/MID_0215.cs:59-68 | Two relays and one input give counts "02" and "01". The relay list is 8 characters at 28, the count moves to 36, and the 4-character input list to 38. |
| `IoDeviceLayout.Rev1BodyExample` | src/OpenProtocolInterpreter/IOInterface/MID_0215.cs:79-85 | A revision-1 list with device id "05", relay list r and digital-input list d is written as "01" "05" "02" r "03" d. |
| `IoDeviceLayout.Rev2ParseLayout` | src/OpenProtocolInterpreter/IOInterface/MID_0215.cs:96-104 | The revision-2 re-layout in Parse keeps the five fields in their order. |
| `IoDeviceLayout.Rev2Resize` | src/OpenProtocolInterpreter/IOInterface/MID_0215.cs:96-104 | The re-layout keeps the field order. It fails as a malformed field when the relay count is missing from the package or is not a number. |
| `IoDeviceLayout.ReadAll` | src/OpenProtocolInterpreter/IOInterface/MID_0215.cs:107-108 | The reading loop succeeds exactly when every field's slice is in the package. Each field then holds its slice, with nothing else changed. |
| `IoDeviceLayout.ListOf` | src/OpenProtocolInterpreter/IOInterface/MID_0215.cs:110-111 | A list text decodes exactly when its width is a multiple of 4. The items re-encode to the text, 4 characters each. |
| `IoDeviceLayout.ParseLayout` | src/OpenProtocolInterpreter/IOInterface/MID_0215.cs:92-104 | Parse's first step changes only the header and, above revision 1, the revision-2 list. It always succeeds for revision ≤ 1. Above 1 it succeeds exactly when the re-layout does, and otherwise fails as a malformed field. |
| `IoDeviceLayout.ParseFields` | src/OpenProtocolInterpreter/IOInterface/MID_0215.cs:107-108 | The reading step succeeds exactly for revision 1 or 2 with every slice present, and replaces only that revision's list with what was read. Other revisions fail as unsupported. |
| `IoDeviceLayout.ParseLists` | src/OpenProtocolInterpreter/IOInterface/MID_0215.cs:110-111 | The last step succeeds exactly when both revision-2 list texts are whole items. Only the relay and digital-input lists change, and they re-encode to those texts. |
| `IoDeviceLayout.ParseSpec` | src/OpenProtocolInterpreter/IOInterface/MID_0215.cs:88-116 | A successful parse leaves a well-formed object. |
| `IoDeviceLayout.ParseOutcomes` | src/OpenProtocolInterpreter/IOInterface/MID_0215.cs:88-116 | A malformed header fails Parse. A successful parse holds the package's header, with revision 1 or 2. With a readable re-layout, any other revision fails as unsupported. |
| `IoDeviceLayout.MidOfDecoded` | src/OpenProtocolInterpreter/IOInterface/MID_0215.cs:90-92 | The MID the template routes on is the MID of the header it reads. |
| `IoDeviceLayout.ParseRev2Layout` | src/OpenProtocolInterpreter/IOInterface/MID_0215.cs:96-111 | Revision-2 Parse has the following results: (1) the relay count in the package is the number of relays parsed; (2) the relay list spans 4 characters per relay and is followed by the input count; (3) the input list moves 2 characters from its own previous index and ends at the end of the package; (4) every field holds its slice; (5) both lists re-encode to their slices; (6) revision 1's list is untouched. |
| `IoDeviceLayout.ReadLayout` | src/OpenProtocolInterpreter/IOInterface/MID_0215.cs:98-108 | After the re-layout and the read, the relay text is 4 characters per counted relay, the input list runs to the end of the package, and every field holds its slice. |
| `IoDeviceLayout.ParseInputIndexDrift` | src/OpenProtocolInterpreter/IOInterface/MID_0215.cs:103 | Two revision-2 parses in a row move the digital-input list 4 characters, whatever the packages. |
| `IoDeviceLayout.FreshTemplateReadsFromColumn2` | src/OpenProtocolInterpreter/IOInterface/MID_0215.cs:101-111 | With fields looked up by id, a new revision-2 object that parses a revision-2 package takes its digital inputs from column 2 on, inside the header: they re-encode to the package from column 2, 4 characters each. |
| `IoDeviceLayout.PackThenParseGainsInputs` | src/OpenProtocolInterpreter/IOInterface/MID_0215.cs:55-111 | With fields looked up by id, for any revision-2 object, a new object that parses its packed text finds more digital inputs than were packed, so Parse does not invert Pack. |
| `IoDeviceLayout.EmptyRev2ParseGainsInputs` | src/OpenProtocolInterpreter/IOInterface/MID_0215.cs:55-111 | With fields looked up by id, the empty revision-2 message packs to the 34 characters "00340215002         01020003040005". A new object parses them successfully, with no relays and eight digital inputs. |
| `IoDeviceLayout.Rev2ParseLayoutAnchored` | src/OpenProtocolInterpreter/IOInterface/MID_0215.cs:101-104 | The corrected re-layout keeps the five fields in order, puts the digital-input list 2 characters after the digital-input count as Pack does, and runs it to the end of the package. |
| `IoDeviceLayout.AnchoredLayoutMatchesPack` | src/OpenProtocolInterpreter/IOInterface/MID_0215.cs:59-69 | Given the relay count Pack wrote, the corrected re-layout puts every field at the index Pack gave it, and the relay list at Pack's size. |
| `IoDeviceLayout.AnchoredLayoutDoesNotDrift` | src/OpenProtocolInterpreter/IOInterface/MID_0215.cs:101-104 | The corrected re-layout does not depend on what an earlier parse did: re-laying out twice gives what re-laying out once gives. |
| `IoDeviceLayout.ParseRev1UsesRev2Lists` | src/OpenProtocolInterpreter/IOInterface/MID_0215.cs:93-111 | Revision-1 Parse reads only the revision-1 fields, each from its slice. It decodes the item lists from the untouched revision-2 list fields. |
| `IoDeviceLayout.Rev2PackLayoutPositional` | src/OpenProtocolInterpreter/IOInterface/MID_0215.cs:62-69 | The as-written positional lookup still yields five fields in the declared order. |
| `IoDeviceLayout.PositionalLookupMisplacesCounts` | src/OpenProtocolInterpreter/IOInterface/MID_0215.cs:59-69 | As written, empty lists leave the relay-count entry with "" (not a number) and the digital-input list entry with "0". Lookup by id gives "00" and "". |
| `IoDeviceLayout.Rev2ParseLayoutPositional` | src/OpenProtocolInterpreter/IOInterface/MID_0215.cs:93-104 | The as-written re-layout of Parse keeps the five fields in their declared order, although it sizes, moves and stretches the entries at the enumeration positions. |
| `IoDeviceLayout.PositionalRelayListDrift` | src/OpenProtocolInterpreter/IOInterface/MID_0215.cs:94-104 | As written, the self-relative move of Parse acts on the relay-list entry of a new revision-2 object: one re-layout moves it from 28 to 30, a second to 32, whatever the packages and counts. |
| `IoDeviceLayout.Rev2ResizePositional` | src/OpenProtocolInterpreter/IOInterface/MID_0215.cs:96-104 | As written, the re-layout succeeds exactly when the slice of the entry at position 3 (the digital-input count) is in the package and is a number. It keeps the field order and otherwise fails as a malformed field. |
| `IoDeviceLayout.ParseLayoutPositional` | src/OpenProtocolInterpreter/IOInterface/MID_0215.cs:92-104 | As written, Parse's first step changes only the header and the revision-2 list, keeps the object well-formed, always succeeds for revision ≤ 1, and fails only as a malformed field. |
| `IoDeviceLayout.ParseListsPositional` | src/OpenProtocolInterpreter/IOInterface/MID_0215.cs:110-111 | As written, the relays are decoded from the entry at position 1 and the digital inputs from the one at position 2, the entries taken at lines 93-94. The step succeeds exactly when both texts are whole items, changes only the two lists, and they re-encode to those texts. |
| `IoDeviceLayout.ParseSpecPositional` | src/OpenProtocolInterpreter/IOInterface/MID_0215.cs:88-111 | A successful as-written parse leaves a well-formed object. |
| `IoDeviceLayout.PositionalParseReadsLengthDigits` | src/OpenProtocolInterpreter/IOInterface/MID_0215.cs:93-111 | As written, a new revision-2 object parsing a package shorter than 100 characters reads its relay count from the "00" of the length field. It succeeds exactly when the package reaches column 30 and the rest is whole 4-character items, and then parses no relays and takes everything from column 30 on as the digital-input list. |
| `IoDeviceStatus.Mid0215.constructor` | src/OpenProtocolInterpreter/IOInterface/MID_0215.cs:47-51 | A new object is valid, holds the registered tables and empty lists, and defaults to revision 2. |
| `IoDeviceStatus.Mid0215.SetIoDeviceId` | src/OpenProtocolInterpreter/IOInterface/MID_0215.cs:28-32 | The setter updates the current revision's device field as `WithIoDeviceId` says. It changes nothing for another revision. |
| `IoDeviceStatus.Mid0215.LayOut` | src/OpenProtocolInterpreter/IOInterface/MID_0215.cs:57-76 | The in-place layout leaves the object in the state `PackState` describes. |
| `IoDeviceStatus.Mid0215.LayOutRevision2` | src/OpenProtocolInterpreter/IOInterface/MID_0215.cs:57-69 | The array of revision-2 fields becomes `Rev2PackLayout` of its old contents. |
| `IoDeviceStatus.Mid0215.LayOutRevision1` | src/OpenProtocolInterpreter/IOInterface/MID_0215.cs:71-76 | The array of revision-1 fields becomes `Rev1PackLayout` of its old contents. |
| `IoDeviceStatus.Mid0215.WriteFields` | src/OpenProtocolInterpreter/IOInterface/MID_0215.cs:79-85 | The writing loop produces `Body` of the array: each value behind its ordinal, counting from 01. |
| `IoDeviceStatus.Mid0215.Pack` | src/OpenProtocolInterpreter/IOInterface/MID_0215.cs:55-86 | Pack leaves the object in `PackState` and returns `PackOutput` of the old state. |
| `IoDeviceStatus.Mid0215.Resize` | src/OpenProtocolInterpreter/IOInterface/MID_0215.cs:96-104 | The re-layout succeeds exactly when `Rev2Resize` does, and the array becomes its result. On failure the array is unchanged. |
| `IoDeviceStatus.Mid0215.ReadFields` | src/OpenProtocolInterpreter/IOInterface/MID_0215.cs:107-108 | The reading loop succeeds exactly when `ReadAll` does, and the array becomes its result. The field order is kept either way. |
| `IoDeviceStatus.Mid0215.TakeHeader` | src/OpenProtocolInterpreter/IOInterface/MID_0215.cs:92-104 | Taking the header and re-laying out succeeds exactly when `ParseLayout` does, and the object becomes its result. |
| `IoDeviceStatus.Mid0215.ReadCurrent` | src/OpenProtocolInterpreter/IOInterface/MID_0215.cs:107-108 | Reading the current revision succeeds exactly when `ParseFields` does, with its result and its error. |
| `IoDeviceStatus.Mid0215.DecodeLists` | src/OpenProtocolInterpreter/IOInterface/MID_0215.cs:110-111 | Decoding the lists succeeds exactly when `ParseLists` does, with its result and its error. On failure the object is left as it was. |
| `IoDeviceStatus.Mid0215.Parse` | src/OpenProtocolInterpreter/IOInterface/MID_0215.cs:88-116 | A package of another MID is forwarded and leaves the object unchanged. Otherwise Parse ends in the state `ParseSpec` gives, or fails with `ParseSpec`'s error. |
| `Text.FormatNat` | src/OpenProtocolInterpreter/IOInterface/MID_0215.cs:59-60 | The integer converter writes at least one digit and never fewer characters than the field size. |
| `Text.ParseNat` | src/OpenProtocolInterpreter/IOInterface/MID_0215.cs:98 | Text reads as a number exactly when it is non-empty and all digits, and the number is below 10 to the power of its width. |
| `Text.ParseFormat` | src/OpenProtocolInterpreter/IOInterface/MID_0215.cs:59-60 | Integer-converter text reads back as the number written, at any width. |
| `Text.FormatWidth` | src/OpenProtocolInterpreter/IOInterface/MID_0215.cs:59-60 | A number narrower than the field fills it exactly. |
| `Text.FormatParse` | src/OpenProtocolInterpreter/IOInterface/MID_0215.cs:98 | A field of digits is exactly the converter's text for its value at its width. |
| `Text.NatToDigitsValue` | src/OpenProtocolInterpreter/IOInterface/MID_0215.cs:82 | Decimal text denotes its number, with a leading zero only for 0. |
| `Text.Ordinal` | src/OpenProtocolInterpreter/IOInterface/MID_0215.cs:82 | Below 100, the ordinal Pack writes is two digits. |
| `Text.OrdinalIsPadded` | src/OpenProtocolInterpreter/IOInterface/MID_0215.cs:82 | The ordinal Pack writes is the number padded to two digits. |
| `Text.OrdinalWidth` | src/OpenProtocolInterpreter/IOInterface/MID_0215.cs:82 | Below 100, the ordinal is two digits that read back as the number. |
| `Text.AsciiRoundTrip` | src/OpenProtocolInterpreter/AutomaticManualMode/AutomaticManualModeMessages.cs:21 | Reading the ASCII bytes of a text gives the text back. |
| `ItemLists.Encode` | src/OpenProtocolInterpreter/IOInterface/MID_0215.cs:63-64 | An encoded list is 4 characters per item. |
| `ItemLists.Decode` | src/OpenProtocolInterpreter/IOInterface/MID_0215.cs:110-111 | A text that decodes is 4 characters per item. |
| `ItemLists.DecodeEncode` | src/OpenProtocolInterpreter/IOInterface/MID_0215.cs:64 | Decoding an encoded list gives the list back. |
| `ItemLists.EncodeDecode` | src/OpenProtocolInterpreter/IOInterface/MID_0215.cs:110-111 | Any text that decodes re-encodes to itself. |
| `ItemLists.DecodeFailsOnPartialItem` | src/OpenProtocolInterpreter/IOInterface/MID_0215.cs:110-111 | Decoding fails exactly when the text is not a whole number of 4-character items. |
| `Header.Decode` | src/OpenProtocolInterpreter/IOInterface/MID_0215.cs:92 | A header read succeeds only on 20 characters or more. The length, MID and revision come from their own columns, and the nine routing characters are kept. |
| `Header.Encode` | src/OpenProtocolInterpreter/IOInterface/MID_0215.cs:78 | A header in range is written in exactly 20 characters. |
| `Header.MidOf` | src/OpenProtocolInterpreter/IOInterface/MID_0215.cs:90 | A MID is read exactly when the package has 8 characters and columns 4-7 are digits, and it is below 10000. |
| `Header.HasMid` | src/OpenProtocolInterpreter/IOInterface/MID_0215.cs:90 | A package that a template accepts has its MID written as 4 digits in columns 4-7. |
| `Header.DecodeEncode` | src/MIDTesters/Job/Advanced/TestMid0129.cs:23-29 | A written header reads back as itself, whatever body follows, and routes on its MID. |
| `Header.EncodeDecode` | src/MIDTesters/Job/Advanced/TestMid0129.cs:13-17 | A header read and written back reproduces the package's first 20 characters, when the revision field is in written form. |
| `Header.Mid0129Revision1Header` | src/MIDTesters/Job/Advanced/TestMid0129.cs:13-17 | The blank-revision header of the revision-1 MID 0129 package reads as revision 1 and is re-packed verbatim. |
| `Header.Mid0129Revision2Header` | src/MIDTesters/Job/Advanced/TestMid0129.cs:23-29 | The revision-2 MID 0129 package reads back its header, and header plus body re-pack verbatim. |
| `Dispatch.Resolve` | src/OpenProtocolInterpreter/IOInterface/MID_0215.cs:88-116 | A resolved template is in the chain and accepts the package. Resolution fails, as an unrecognised message type, exactly when no template accepts. |
| `Dispatch.ResolveFirstMatch` | src/OpenProtocolInterpreter/IOInterface/MID_0215.cs:90-115 | The chain resolves to the first template that accepts the package. |
| `Dispatch.ResolveUnique` | src/OpenProtocolInterpreter/AutomaticManualMode/AutomaticManualModeMessages.cs:11 | With distinct MIDs, any accepting template is the one resolved. |
| `Dispatch.ResolveOrderIndependent` | src/OpenProtocolInterpreter/MIDs/Communication/CommunicationMessages.cs:9 | With distinct MIDs, reordering the chain changes no resolution. |
| `Dispatch.UnknownMidFails` | src/OpenProtocolInterpreter/AutomaticManualMode/AutomaticManualModeMessages.cs:11-19 | A package whose MID is in no template is reported unrecognised. |
| `AutomaticManualMode.New` | src/OpenProtocolInterpreter/AutomaticManualMode/AutomaticManualModeMessages.cs:11 | The default chain holds MIDs 0400, 0401, 0402, 0403, 0410 and 0411 in that order, all distinct. |
| `AutomaticManualMode.DefaultResolution` | src/OpenProtocolInterpreter/AutomaticManualMode/AutomaticManualModeMessages.cs:11-19 | Under the default chain, a package resolves exactly when its MID is one of the six, and then to that template. Any other package fails as unrecognised. |
| `AutomaticManualMode.WithSelection` | src/OpenProtocolInterpreter/AutomaticManualMode/AutomaticManualModeMessages.cs:14-17 | The selecting constructor builds a chain of exactly the selected templates' MIDs. |
| `AutomaticManualMode.SelectionResolution` | src/OpenProtocolInterpreter/AutomaticManualMode/AutomaticManualModeMessages.cs:14-19 | With a selection of distinct MIDs, a package resolves exactly when its MID is one of the selected, and then to the selected template with that MID. |
| `AutomaticManualMode.SelectionOrderIrrelevant` | src/OpenProtocolInterpreter/AutomaticManualMode/AutomaticManualModeMessages.cs:14-17 | A selection of distinct templates resolves the same in any order. |
| `AutomaticManualMode.ProcessPackage` | src/OpenProtocolInterpreter/AutomaticManualMode/AutomaticManualModeMessages.cs:19 | A package is handed to a template of the chain whose MID is the package's. It fails as an unrecognised message type exactly when no template has that MID. |
| `AutomaticManualMode.ProcessPackageBytes` | src/OpenProtocolInterpreter/AutomaticManualMode/AutomaticManualModeMessages.cs:21 | The bytes, read as ASCII text, are handed to a template whose MID is the text's. They fail as unrecognised exactly when no template has that MID. |
| `AutomaticManualMode.BytesResolveAsText` | src/OpenProtocolInterpreter/AutomaticManualMode/AutomaticManualModeMessages.cs:19-21 | The byte overload resolves the ASCII bytes of a text as the text overload resolves the text. |
| `Communication.New` | src/OpenProtocolInterpreter/MIDs/Communication/CommunicationMessages.cs:9 | The chain holds MIDs 0005, 0004, 0001 and 0002 in that order, all distinct. |
| `Communication.ProcessPackage` | src/OpenProtocolInterpreter/MIDs/Communication/CommunicationMessages.cs:12-15 | A package is handed to a template of the chain whose MID is the package's. It fails as an unrecognised message type exactly when no template has that MID. |
| `Communication.Resolution` | src/OpenProtocolInterpreter/MIDs/Communication/CommunicationMessages.cs:9-15 | A package resolves exactly when its MID is 1, 2, 4 or 5, and then to that template. Any other package fails as unrecognised. |
| `Communication.Sorted` | src/OpenProtocolInterpreter/MIDs/Communication/CommunicationMessages.cs:9 | The same four templates in ascending MID order. |
| `Communication.SortedChainAgrees` | src/OpenProtocolInterpreter/MIDs/Communication/CommunicationMessages.cs:9 | The chain's order does not matter: the sorted chain resolves every package the same way. |
| `Communication.SortedIsPermutation` | src/OpenProtocolInterpreter/MIDs/Communication/CommunicationMessages.cs:9 | The sorted chain has the same templates, with distinct MIDs. |

## Left out

- The base class `Mid` is not part of this model. That covers `BuildHeader`, `ProcessHeader`,
  `IsCorrectType`, the `DataField` type with its `GetValue`/`SetValue`, and `RevisionsByFields`.
  They are modelled from how MID_0215.cs uses them:
  - a 20-character header whose length field is 20 + the body's length;
  - a field value as the `size` characters at `index`;
  - a blank revision read as 1 and written for revision 1.
- The converters are not part of this model either:
  - the integer converter is decimal text left-padded to the field size, and never truncates;
  - the relay and digital-input converters treat each item as an opaque 4-character text.
- `MessageTemplateFactory.BuildChainOfMids` is not part of this model. The selecting constructor
  keeps the selected templates in their order.
- The other message templates (MID 0001–0005, 0400–0411) are reduced to their MID. A template
  accepts a package exactly when its MID matches, and their own parsing is left out.
- `ProcessPackage(byte[])` is modelled for ASCII bytes only. Text decoding of other bytes is left out.
- Exceptions thrown by the converters or by an out-of-range slice are modelled as a `Failure`
  result. The error kinds are this model's, not the library's.
- `IoDeviceStatus.Mid0215.Parse`: on failure the object stays valid, but its state is left
  unspecified, as the code leaves it partly updated.
- `IoDeviceStatus.Mid0215.TakeHeader`: on failure the object stays valid, but its state is left
  unspecified, as the code has already taken the header when the relay count fails to read.
- `IoDeviceStatus.Mid0215.ReadFields`: on failure only the field ids and their order are
  stated, as the fields read before the failing slice already hold their new values.
- `IoDeviceStatus.Mid0215.ReadCurrent`: on failure the object stays valid and the error is
  stated, but the state is left unspecified.
- Returning `this` from Parse and handing the package to `NextTemplate` are modelled as the
  results `Parsed` and `Forwarded(package)`. The next template's own work is left out.
- Thread safety and the sharing of one template object between parses are left out.
- Integers are non-negative (`nat`). A negative device id or count, and 32-bit overflow, are
  left out.
- The `NumberOfRelays` and `NumberOfDigitalInputs` getters are not separate operations. What
  they read is stated by `Rev2PackCountsAndSizes` and `ParseRev2Layout`.
- Pack followed by Parse is not a round trip in the code (see "## Findings"). The corrected
  layout `Rev2ParseLayoutAnchored` puts every field where Pack put it, but no full round trip is
  proved even for it: the declared indexes mark the ordinals Pack writes, and how the base
  class's `GetValue` would skip them is not part of this model. The main model, including the
  class `Mid0215`, keeps the code's own placement of the digital-input list.

## Findings

| source | as written | input that shows it | evidently intended | confidence | as-written member | corrected member |
|---|---|---|---|---|---|---|
| src/OpenProtocolInterpreter/IOInterface/MID_0215.cs:59-111 | `RevisionsByFields[2][(int)DataFields.X]` indexes the revision-2 list by the enumeration value, in Pack and in Parse. That list is ordered device id, relay count, relay list, input count, input list, while the enumeration is device id, relay list, input list, relay count, input count. So Pack writes `NumberOfRelays` into the input-count entry and `RelayList` into the relay-count entry. Parse reads the relay count through the input-count entry, which a new object registers at index 0, and decodes the relays from the relay-count entry and the digital inputs from the relay-list entry. | Pack: the registered revision-2 table with no relays and no inputs; it puts "" where the relay count "00" belongs and "0" where the empty digital-input list belongs. Parse: a new revision-2 object given any revision-2 package shorter than 100 characters; it reads the relay count from the "00" at the start of the length field, parses no relays, and takes everything from column 30 on as the digital-input list. | Each access finds the field carrying that id, so Pack's counts read "00" with empty lists, and Parse reads the relay count through the relay-count entry registered at index 24. | not executed; the base class's list type is not part of this model. The Pack input holds whatever the base class's `GetValue` does. The Parse input (the "00" of the length field, column 30) depends on reading a field as the `size` characters at its `index` | `IoDeviceLayout.Rev2PackLayoutPositional`, `IoDeviceLayout.PositionalLookupMisplacesCounts`, `IoDeviceLayout.Rev2ParseLayoutPositional`, `IoDeviceLayout.ParseSpecPositional`, `IoDeviceLayout.PositionalParseReadsLengthDigits` | `IoDeviceLayout.Rev2PackLayout`, `IoDeviceLayout.Rev2PackCountsAndSizes`, `IoDeviceLayout.Rev2ParseLayout`, `IoDeviceLayout.ParseSpec`, `IoDeviceLayout.ParseRev2Layout` |
| src/OpenProtocolInterpreter/IOInterface/MID_0215.cs:101-104 | Parse places the digital-input count behind the relay list (:101), but then moves the digital-input list 2 characters on from the list's own previous index (:103), not from the count as Pack does (:67). It then stretches the list to the end of the package (:104). The move drifts under either lookup. As written, with the positional lookup of the row above, it acts on the relay-list entry, which a new object registers at index 28: each parse moves that entry 2 on, to 30, then 32. With fields looked up by id, as in the main model, it acts on the digital-input list, which a new object registers at index 0: Parse then reads the digital inputs from column 2, inside the header, and every further parse moves the list 2 more. As written: a new revision-2 object, parsed twice, moves its relay-list entry from 28 to 30 to 32. With fields looked up by id (the Pack of the row above corrected, the Parse move kept): the empty revision-2 message packs to the 34 characters "00340215002         01020003040005", and a new object parses them as eight digital inputs. For any revision-2 message, a new object parsing its packed text finds more digital inputs than were packed. | Parse inverts Pack: the digital-input list starts 2 characters after the digital-input count, where Pack put it. A parse then finds every field at the index Pack gave it, and repeated parses do not drift. | not executed; the column-2 reading, the 34-character input and the gained inputs assume the lookup by id of the row above; they also depend on reading a field as the `size` characters at its `index`, and the full inverse also on how the base class skips the ordinals Pack writes | `IoDeviceLayout.Rev2ParseLayout`, `IoDeviceLayout.ParseInputIndexDrift`, `IoDeviceLayout.FreshTemplateReadsFromColumn2`, `IoDeviceLayout.PackThenParseGainsInputs`, `IoDeviceLayout.EmptyRev2ParseGainsInputs`, `IoDeviceLayout.PositionalRelayListDrift` | `IoDeviceLayout.Rev2ParseLayoutAnchored`, `IoDeviceLayout.AnchoredLayoutMatchesPack`, `IoDeviceLayout.AnchoredLayoutDoesNotDrift` |

=== FILE: automatic_manual_mode.dfy ===
/**
 * The automatic/manual-mode message family: a fixed dispatch chain of six
 * templates (MIDs 0400 to 0411), or one built from a caller's selection, held
 * in a field that is set once, and two entry points that hand a package, as
 * text or as bytes, to the head of that chain.
 */
module AutomaticManualMode {
  import opened Outcomes
  import opened Text
  import Header
  import opened Dispatch

  /** The family's message processor; the datatype is immutable, as the readonly field is. */
  datatype AutomaticManualModeMessages = AutomaticManualModeMessages(templates: seq<Template>)

  /** The default constructor's chain: Mid0400 → Mid0401 → Mid0402 → Mid0403 → Mid0410 → Mid0411 → null. */
  function New(): (m: AutomaticManualModeMessages)
    ensures Mids(m.templates) == [400, 401, 402, 403, 410, 411]
    ensures DistinctMids(m.templates)
  {
    AutomaticManualModeMessages([
      Template("Mid0400", 400), Template("Mid0401", 401), Template("Mid0402", 402),
      Template("Mid0403", 403), Template("Mid0410", 410), Template("Mid0411", 411)])
  }

  /** The selecting constructor: the chain is built from the selected templates, in their order. */
  function WithSelection(selectedMids: seq<Template>): (m: AutomaticManualModeMessages)
    ensures Mids(m.templates) == Mids(selectedMids)
  {
    AutomaticManualModeMessages(selectedMids)
  }

  /** `ProcessPackage(string)`: the whole package goes to the chain head, which answers with a
      template of the chain carrying the package's MID, or reports that none does. */
  function ProcessPackage(m: AutomaticManualModeMessages, package: string): (r: Result<Template>)
    ensures r.Success? ==> r.value in m.templates && Header.MidOf(package) == Some(r.value.mid)
    ensures r.Failure? <==> forall t | t in m.templates :: Header.MidOf(package) != Some(t.mid)
    ensures r.Failure? ==> r.error == UnrecognisedMessageType
  {
    Resolve(m.templates, package)
  }

  /** `ProcessPackage(byte[])`: the bytes are read as ASCII text and go to the chain head. */
  function ProcessPackageBytes(m: AutomaticManualModeMessages, package: seq<byte>): (r: Result<Template>)
    ensures r.Success? ==> r.value in m.templates && Header.MidOf(AsciiText(package)) == Some(r.value.mid)
    ensures r.Failure? <==> forall t | t in m.templates :: Header.MidOf(AsciiText(package)) != Some(t.mid)
  {
    ProcessPackage(m, AsciiText(package))
  }

  /** A package resolves, under the default chain, exactly when its MID is one of the six,
      and then to the template with that MID; any other package is reported unrecognised. */
  lemma DefaultResolution(package: string)
    ensures var r := ProcessPackage(New(), package);
            (r.Success? <==> Header.MidOf(package).Some? && Header.MidOf(package).value in {400, 401, 402, 403, 410, 411}) &&
            (r.Success? ==> Header.MidOf(package) == Some(r.value.mid) && r.value in New().templates) &&
            (r.Failure? ==> r.error == UnrecognisedMessageType)
  {
    var chain := New().templates;
    if Header.MidOf(package).Some? && Header.MidOf(package).value in {400, 401, 402, 403, 410, 411} {
      var mid := Header.MidOf(package).value;
      var k := if mid == 400 then 0 else if mid == 401 then 1 else if mid == 402 then 2
               else if mid == 403 then 3 else if mid == 410 then 4 else 5;
      assert chain[k].mid == mid;
      ResolveUnique(chain, package, chain[k]);
    }
  }

  /** With distinct MIDs in the selection, a package resolves exactly when its MID was selected,
      and then to the selected template carrying it. */
  lemma SelectionResolution(selectedMids: seq<Template>, package: string)
    requires DistinctMids(selectedMids)
    ensures var r := ProcessPackage(WithSelection(selectedMids), package);
            (r.Success? <==> Header.MidOf(package).Some? && Header.MidOf(package).value in Mids(selectedMids)) &&
            (r.Success? ==> r.value in selectedMids && Header.MidOf(package) == Some(r.value.mid))
  {
    var r := ProcessPackage(WithSelection(selectedMids), package);
    var mids := Mids(selectedMids);
    if Header.MidOf(package).Some? && Header.MidOf(package).value in mids {
      var k :| 0 <= k < |mids| && mids[k] == Header.MidOf(package).value;
      ResolveUnique(selectedMids, package, selectedMids[k]);
    }
    if r.Success? {
      var k :| 0 <= k < |selectedMids| && selectedMids[k] == r.value;
      assert mids[k] == r.value.mid;
    }
  }

  /** With distinct MIDs in the selection, resolution does not depend on the order of selection. */
  lemma SelectionOrderIrrelevant(selectedMids: seq<Template>, reordered: seq<Template>, package: string)
    requires DistinctMids(selectedMids) && DistinctMids(reordered)
    requires multiset(selectedMids) == multiset(reordered)
    ensures ProcessPackage(WithSelection(selectedMids), package) == ProcessPackage(WithSelection(reordered), package)
  {
    ResolveOrderIndependent(selectedMids, reordered, package);
  }

  /** Both overloads agree: the ASCII bytes of a text resolve as the text does. */
  lemma BytesResolveAsText(m: AutomaticManualModeMessages, package: string)
    requires IsAscii(package)
    ensures ProcessPackageBytes(m, AsciiBytes(package)) == ProcessPackage(m, package)
  {
    AsciiRoundTrip(package);
  }
}

=== FILE: communication.dfy ===
/**
 * The communication message family: one dispatch chain of four templates,
 * MID_0005 → MID_0004 → MID_0001 → MID_0002 → null, set once, and a single
 * entry point that hands the package to its head.
 */
module Communication {
  import opened Outcomes
  import Header
  import opened Dispatch

  /** The family's message processor; the datatype is immutable, as the readonly field is. */
  datatype CommunicationMessages = CommunicationMessages(templates: seq<Template>)

  /** The constructor's chain, in its (not ascending) order. */
  function New(): (m: CommunicationMessages)
    ensures Mids(m.templates) == [5, 4, 1, 2]
    ensures DistinctMids(m.templates)
  {
    CommunicationMessages([Template("MID_0005", 5), Template("MID_0004", 4), Template("MID_0001", 1), Template("MID_0002", 2)])
  }

  /** `processPackage`: whatever the chain head returns for the whole package: a template of the
      chain carrying the package's MID, or the report that none does. */
  function ProcessPackage(m: CommunicationMessages, package: string): (r: Result<Template>)
    ensures r.Success? ==> r.value in m.templates && Header.MidOf(package) == Some(r.value.mid)
    ensures r.Failure? <==> forall t | t in m.templates :: Header.MidOf(package) != Some(t.mid)
    ensures r.Failure? ==> r.error == UnrecognisedMessageType
  {
    Resolve(m.templates, package)
  }

  /** A package resolves exactly when its MID is 1, 2, 4 or 5, and then to that MID's template,
      although the chain is not in ascending order; any other MID is reported unrecognised. */
  lemma Resolution(package: string)
    ensures var r := ProcessPackage(New(), package);
            (r.Success? <==> Header.MidOf(package).Some? && Header.MidOf(package).value in {1, 2, 4, 5}) &&
            (r.Success? ==> Header.MidOf(package) == Some(r.value.mid) && r.value in New().templates) &&
            (r.Failure? ==> r.error == UnrecognisedMessageType)
  {
    var chain := New().templates;
    if Header.MidOf(package).Some? && Header.MidOf(package).value in {1, 2, 4, 5} {
      var mid := Header.MidOf(package).value;
      var k := if mid == 5 then 0 else if mid == 4 then 1 else if mid == 1 then 2 else 3;
      assert chain[k].mid == mid;
      ResolveUnique(chain, package, chain[k]);
    }
  }

  /** The constructor's chain in ascending MID order. */
  function Sorted(): (chain: seq<Template>)
    ensures Mids(chain) == [1, 2, 4, 5]
  {
    [Template("MID_0001", 1), Template("MID_0002", 2), Template("MID_0004", 4), Template("MID_0005", 5)]
  }

  /** The chain in ascending MID order resolves every package as the constructor's chain does. */
  lemma SortedChainAgrees(package: string)
    ensures ProcessPackage(New(), package) == ProcessPackage(CommunicationMessages(Sorted()), package)
  {
    SortedIsPermutation();
    ResolveOrderIndependent(New().templates, Sorted(), package);
  }

  lemma SortedIsPermutation()
    ensures DistinctMids(Sorted())
    ensures multiset(New().templates) == multiset(Sorted())
  {
    var t1, t2, t4, t5 := Template("MID_0001", 1), Template("MID_0002", 2), Template("MID_0004", 4), Template("MID_0005", 5);
    assert New().templates == [t5, t4] + [t1, t2];
    assert Sorted() == [t1, t2] + [t4, t5];
  }
}

=== FILE: dispatch.dfy ===
/**
 * Chain-of-responsibility dispatch. Each template parses a package whose MID
 * matches its own and otherwise hands the same package to the next template;
 * the chain ends in a null link. Here the chain is an immutable sequence and
 * reaching its end is an explicit `UnrecognisedMessageType` failure.
 */
module Dispatch {
  import opened Outcomes
  import opened Text
  import Header

  /** A message template, known to the chain only by its type name and MID. */
  datatype Template = Template(name: string, mid: nat)

  /** The template's IsCorrectType test on a raw package. */
  predicate Accepts(t: Template, package: string)
  {
    Header.HasMid(package, t.mid)
  }

  /** `head.Parse(package)`: the first template that accepts the package, or the null terminal. */
  function Resolve(chain: seq<Template>, package: string): (r: Result<Template>)
    ensures r.Success? ==> r.value in chain && Accepts(r.value, package)
    ensures r.Failure? <==> forall t | t in chain :: !Accepts(t, package)
    ensures r.Failure? ==> r.error == UnrecognisedMessageType
  {
    if chain == [] then Failure(UnrecognisedMessageType)
    else if Accepts(chain[0], package) then Success(chain[0])
    else Resolve(chain[1..], package)
  }

  /** No two templates of the chain share a MID. */
  predicate DistinctMids(chain: seq<Template>)
  {
    forall i, j | 0 <= i < j < |chain| :: chain[i].mid != chain[j].mid
  }

  function Mids(chain: seq<Template>): (mids: seq<nat>)
    ensures |mids| == |chain|
    ensures forall i | 0 <= i < |chain| :: mids[i] == chain[i].mid
  {
    seq(|chain|, i requires 0 <= i < |chain| => chain[i].mid)
  }

  /** Resolution stops at the first accepting template: every template before it declined. */
  lemma {:induction false} ResolveFirstMatch(chain: seq<Template>, package: string)
    requires Resolve(chain, package).Success?
    ensures exists i | 0 <= i < |chain| ::
              chain[i] == Resolve(chain, package).value &&
              forall j | 0 <= j < i :: !Accepts(chain[j], package)
  {
    if !Accepts(chain[0], package) {
      ResolveFirstMatch(chain[1..], package);
      var i :| 0 <= i < |chain[1..]| && chain[1..][i] == Resolve(chain[1..], package).value &&
                forall j | 0 <= j < i :: !Accepts(chain[1..][j], package);
      assert chain[i + 1] == Resolve(chain, package).value;
      forall j | 0 <= j < i + 1 ensures !Accepts(chain[j], package) {
        if j > 0 { assert chain[j] == chain[1..][j - 1]; }
      }
    } else {
      assert chain[0] == Resolve(chain, package).value;
    }
  }

  /** With distinct MIDs, a package resolves to the one template carrying its MID. */
  lemma ResolveUnique(chain: seq<Template>, package: string, t: Template)
    requires DistinctMids(chain)
    requires t in chain && Header.MidOf(package) == Some(t.mid)
    ensures Resolve(chain, package) == Success(t)
  {
    var r := Resolve(chain, package);
    assert Accepts(t, package);
    var i :| 0 <= i < |chain| && chain[i] == r.value;
    var j :| 0 <= j < |chain| && chain[j] == t;
    assert chain[i].mid == chain[j].mid;
  }

  /** With distinct MIDs, the order of the chain does not change what a package resolves to. */
  lemma ResolveOrderIndependent(chain: seq<Template>, reordered: seq<Template>, package: string)
    requires DistinctMids(chain) && DistinctMids(reordered)
    requires multiset(chain) == multiset(reordered)
    ensures Resolve(chain, package) == Resolve(reordered, package)
  {
    forall t ensures t in chain <==> t in reordered {
      assert t in chain <==> t in multiset(chain);
      assert t in reordered <==> t in multiset(reordered);
    }
    var r := Resolve(chain, package);
    if r.Success? {
      ResolveUnique(reordered, package, r.value);
    } else {
      var q := Resolve(reordered, package);
      if q.Success? {
        assert q.value in chain;
      }
    }
  }

  /** Reaching the end of a chain is reported, never traversed past. */
  lemma UnknownMidFails(chain: seq<Template>, package: string)
    requires forall t | t in chain :: Header.MidOf(package) != Some(t.mid)
    ensures Resolve(chain, package) == Failure(UnrecognisedMessageType)
  {
  }
}

=== FILE: header.dfy ===
/**
 * The 20-character preamble of every package: total length (4 digits), MID
 * (4 digits), revision (3 characters) and 9 further routing characters, which
 * this model carries through unchanged. A blank revision field reads as
 * revision 1, and revision 1 is written blank, as the revision-1 package of
 * TestMid0129 shows.
 */
module Header {
  import opened Outcomes
  import opened Text

  const HeaderWidth: nat := 20
  const SpareWidth: nat := 9
  const BlankRevision: string := "   "

  datatype Header = Header(length: nat, mid: nat, revision: int, spare: string)

  function RevisionText(revision: int): string
  {
    if revision <= 1 then BlankRevision else FormatNat(revision, 3)
  }

  /** BuildHeader: the preamble text for `h`; a header in range takes exactly 20 characters. */
  function Encode(h: Header): (r: string)
    ensures Encodable(h) ==> |r| == HeaderWidth
  {
    var r := FormatNat(h.length, 4) + FormatNat(h.mid, 4) + RevisionText(h.revision) + h.spare;
    if Encodable(h) then
      NumberWidths(h);
      RevisionWidth(h.revision);
      r
    else r
  }

  function DecodeRevision(s: string): Option<int>
  {
    if s == BlankRevision then Some(1)
    else match ParseNat(s)
      case Some(n) => Some(n)
      case None => None
  }

  /** ProcessHeader: the preamble of `package`, or none when it is short or not numeric. */
  function Decode(package: string): (r: Option<Header>)
    ensures r.Some? ==> |package| >= HeaderWidth && |r.value.spare| == SpareWidth
    ensures r.Some? ==> ParseNat(package[4..8]) == Some(r.value.mid)
    ensures r.Some? ==> ParseNat(package[..4]) == Some(r.value.length)
    ensures r.Some? ==> DecodeRevision(package[8..11]) == Some(r.value.revision)
    ensures r.Some? ==> r.value.spare == package[11..HeaderWidth]
  {
    if |package| < HeaderWidth then None
    else
      match (ParseNat(package[..4]), ParseNat(package[4..8]), DecodeRevision(package[8..11]))
      case (Some(length), Some(mid), Some(revision)) =>
        Some(Header(length, mid, revision, package[11..HeaderWidth]))
      case _ => None
  }

  /** The MID a template compares against: characters 4 to 7 of the package. */
  function MidOf(package: string): (r: Option<nat>)
    ensures r.Some? <==> |package| >= 8 && AllDigits(package[4..8])
    ensures r.Some? ==> r.value < Pow10(4)
  {
    if |package| < 8 then None else ParseNat(package[4..8])
  }

  /** IsCorrectType: the package carries MID `mid`. */
  predicate HasMid(package: string, mid: nat)
    ensures HasMid(package, mid) ==> |package| >= 8 && ParseNat(package[4..8]) == Some(mid)
  {
    MidOf(package) == Some(mid)
  }

  predicate Encodable(h: Header)
  {
    h.length < 10000 && h.mid < 10000 && 1 <= h.revision < 1000 && |h.spare| == SpareWidth
  }

  lemma NumberWidths(h: Header)
    requires Encodable(h)
    ensures |FormatNat(h.length, 4)| == 4 && |FormatNat(h.mid, 4)| == 4
  {
    assert Pow10(4) == 10000;
    FormatWidth(h.length, 4);
    FormatWidth(h.mid, 4);
  }

  lemma RevisionWidth(revision: int)
    requires 1 <= revision < 1000
    ensures |RevisionText(revision)| == 3
  {
    assert Pow10(3) == 1000;
    if revision > 1 { FormatWidth(revision, 3); }
  }

  /** Reading back a written header gives the same header, and the MID routes on it. */
  lemma DecodeEncode(h: Header, body: string)
    requires Encodable(h)
    ensures Decode(Encode(h) + body) == Some(h)
    ensures HasMid(Encode(h) + body, h.mid)
  {
    PartsParse(h);
    DecodeParts(FormatNat(h.length, 4), FormatNat(h.mid, 4), RevisionText(h.revision), h.spare, body);
  }

  /** Each part of a written header reads back as the value written. */
  lemma PartsParse(h: Header)
    requires Encodable(h)
    ensures |FormatNat(h.length, 4)| == 4 && ParseNat(FormatNat(h.length, 4)) == Some(h.length)
    ensures |FormatNat(h.mid, 4)| == 4 && ParseNat(FormatNat(h.mid, 4)) == Some(h.mid)
    ensures |RevisionText(h.revision)| == 3 && DecodeRevision(RevisionText(h.revision)) == Some(h.revision)
  {
    NumberWidths(h);
    RevisionWidth(h.revision);
    ParseFormat(h.length, 4);
    ParseFormat(h.mid, 4);
    RevisionParse(h.revision);
  }

  lemma RevisionParse(revision: int)
    requires 1 <= revision < 1000
    ensures DecodeRevision(RevisionText(revision)) == Some(revision)
  {
    if revision > 1 {
      RevisionWidth(revision);
      ParseFormat(revision, 3);
      OrdinalDigitsNotBlank(RevisionText(revision));
    }
  }

  /** A package made of a numeric length, a numeric MID, a revision field, 9 characters and a
      body reads as the header those parts denote. */
  lemma DecodeParts(a: string, b: string, c: string, d: string, body: string)
    requires |a| == 4 && |b| == 4 && |c| == 3 && |d| == SpareWidth
    requires ParseNat(a).Some? && ParseNat(b).Some? && DecodeRevision(c).Some?
    ensures Decode(a + b + c + d + body) ==
              Some(Header(ParseNat(a).value, ParseNat(b).value, DecodeRevision(c).value, d))
    ensures MidOf(a + b + c + d + body) == ParseNat(b)
  {
    var p := a + b + c + d + body;
    assert p[..4] == a && p[4..8] == b && p[8..11] == c && p[11..HeaderWidth] == d;
  }

  lemma OrdinalDigitsNotBlank(s: string)
    requires |s| == 3 && AllDigits(s)
    ensures s != BlankRevision
  {
    assert IsDigit(s[0]);
  }

  /** Writing back a read header reproduces the package's first 20 characters,
      whenever its revision field is in the written form (blank for revision 1). */
  lemma EncodeDecode(package: string)
    requires Decode(package).Some?
    requires package[8..11] == BlankRevision || Decode(package).value.revision >= 2
    ensures Encode(Decode(package).value) == package[..HeaderWidth]
  {
    var h := Decode(package).value;
    var a, b, c, d := package[..4], package[4..8], package[8..11], package[11..HeaderWidth];
    assert h == Header(ParseNat(a).value, ParseNat(b).value, DecodeRevision(c).value, d);
    EncodeParts(a, b, c, d);
    Reassemble(package);
  }

  /** Numeric length and MID fields and a revision field in its written form are written back as they were. */
  lemma EncodeParts(a: string, b: string, c: string, d: string)
    requires |a| == 4 && |b| == 4 && |c| == 3
    requires ParseNat(a).Some? && ParseNat(b).Some? && DecodeRevision(c).Some?
    requires c == BlankRevision || DecodeRevision(c).value >= 2
    ensures Encode(Header(ParseNat(a).value, ParseNat(b).value, DecodeRevision(c).value, d)) == a + b + c + d
  {
    NumberText(a, ParseNat(a).value);
    NumberText(b, ParseNat(b).value);
    RevisionTextOf(c, DecodeRevision(c).value);
  }

  lemma NumberText(s: string, n: nat)
    requires ParseNat(s) == Some(n)
    ensures FormatNat(n, |s|) == s
  {
    FormatParse(s);
  }

  lemma RevisionTextOf(s: string, revision: int)
    requires |s| == 3 && DecodeRevision(s) == Some(revision)
    requires s == BlankRevision || revision >= 2
    ensures RevisionText(revision) == s
  {
    if s != BlankRevision {
      FormatParse(s);
    }
  }

  lemma Reassemble(p: string)
    requires |p| >= HeaderWidth
    ensures p[..HeaderWidth] == p[..4] + p[4..8] + p[8..11] + p[11..HeaderWidth]
  {
    assert p[..8] == p[..4] + p[4..8];
    assert p[..11] == p[..8] + p[8..11];
  }

  // Solver helpers: each literal number's text, then each test header as literal pieces. They
  // only break the literal header lemmas below into steps the solver takes cheaply.

  lemma Format0020() ensures FormatNat(20, 4) == "0020"
  {
    assert NatToDigits(20) == "20";
    assert seq(2, _ => '0') == "00";
  }

  lemma Format0029() ensures FormatNat(29, 4) == "0029"
  {
    assert NatToDigits(29) == "29";
    assert seq(2, _ => '0') == "00";
  }

  lemma Format0129() ensures FormatNat(129, 4) == "0129"
  {
    assert NatToDigits(129) == "129";
    assert seq(1, _ => '0') == "0";
  }

  lemma Format002() ensures FormatNat(2, 3) == "002"
  {
    assert NatToDigits(2) == "2";
    assert seq(2, _ => '0') == "00";
  }

  /** The revision-1 package of TestMid0129: its header is read and re-written verbatim. */
  lemma Mid0129Revision1Header()
    ensures Decode("00200129            ") == Some(Header(20, 129, 1, "         "))
    ensures Encode(Header(20, 129, 1, "         ")) == "00200129            "
  {
    var h := Header(20, 129, 1, "         ");
    Mid0129Revision1Text();
    DecodeEncode(h, "");
    assert Encode(h) + "" == Encode(h);
  }

  lemma Mid0129Revision1Text()
    ensures Encode(Header(20, 129, 1, "         ")) == "00200129            "
  {
    Mid0129Revision1Parts();
    Format0020();
    Format0129();
    Mid0129Revision1Literal(FormatNat(20, 4), FormatNat(129, 4));
  }

  lemma Mid0129Revision1Parts()
    ensures Encode(Header(20, 129, 1, "         ")) == FormatNat(20, 4) + FormatNat(129, 4) + "   " + "         "
  {
  }

  lemma Mid0129Revision1Literal(length: string, mid: string)
    requires length == "0020" && mid == "0129"
    ensures length + mid + "   " + "         " == "00200129            "
  {
  }

  /** The revision-2 package of TestMid0129: header then the ordinal-prefixed body. */
  lemma Mid0129Revision2Header()
    ensures Decode("00290129002         010302123") == Some(Header(29, 129, 2, "         "))
    ensures Encode(Header(29, 129, 2, "         ")) + "010302123" == "00290129002         010302123"
  {
    var h := Header(29, 129, 2, "         ");
    Mid0129Revision2Text();
    DecodeEncode(h, "010302123");
  }

  lemma Mid0129Revision2Text()
    ensures Encode(Header(29, 129, 2, "         ")) + "010302123" == "00290129002         010302123"
  {
    Mid0129Revision2Parts();
    Format0029();
    Format0129();
    Format002();
    Mid0129Revision2Literal(FormatNat(29, 4), FormatNat(129, 4), FormatNat(2, 3));
  }

  lemma Mid0129Revision2Parts()
    ensures Encode(Header(29, 129, 2, "         ")) == FormatNat(29, 4) + FormatNat(129, 4) + FormatNat(2, 3) + "         "
  {
  }

  lemma Mid0129Revision2Literal(length: string, mid: string, revision: string)
    requires length == "0029" && mid == "0129" && revision == "002"
    ensures length + mid + revision + "         " + "010302123" == "00290129002         010302123"
  {
  }
}

=== FILE: io_device_layout.dfy ===
/**
 * MID 0215, "IO device status reply": its per-revision field tables, the
 * count-driven layout that Pack and Parse apply to them, and the packed text.
 *
 * Revision 1 is a fixed table (device id, relay list, digital-input list).
 * Revision 2 puts a 2-character count in front of each list; each count sizes
 * its list as count * 4 characters and the fields after it are re-positioned.
 * Pack writes the header and then every field of the current revision,
 * each preceded by its two-digit ordinal 01, 02, ...
 *
 * The functions here describe the whole state of one message object
 * (`State`); the class in io_device_status.dfy is proved to follow them.
 */
module IoDeviceLayout {
  import opened Outcomes
  import opened Text
  import opened ItemLists
  import Header

  const Mid: nat := 215
  const LastRevision: int := 2
  /** Width of the ordinal Pack writes in front of every field. */
  const OrdinalSize: nat := 2
  /** Width of each revision-2 count field (the literal `+ 2` of the layout code). */
  const CountWidth: nat := 2

  /** The `DataFields` enumeration. */
  datatype FieldId = IoDeviceId | RelayList | DigitalInputList | NumberOfRelays | NumberOfDigitalInputs {
    /** `(int)DataFields.X`, the enumeration's integer value. */
    function Ordinal(): nat
    {
      match this
      case IoDeviceId => 0
      case RelayList => 1
      case DigitalInputList => 2
      case NumberOfRelays => 3
      case NumberOfDigitalInputs => 4
    }
  }

  datatype Padding = Unpadded | LeftPadded(fill: char)

  /** One entry of a revision's field list: where it sits, how wide it is, and its current text. */
  datatype DataField = DataField(id: FieldId, index: int, size: int, padding: Padding, value: string)

  // Position, in its revision's list, of the field with each id.
  const DeviceAt: nat := 0
  const Rev1RelayListAt: nat := 1
  const Rev1InputListAt: nat := 2
  const Rev2RelayCountAt: nat := 1
  const Rev2RelayListAt: nat := 2
  const Rev2InputCountAt: nat := 3
  const Rev2InputListAt: nat := 4

  const Rev1Ids: seq<FieldId> := [IoDeviceId, RelayList, DigitalInputList]
  const Rev2Ids: seq<FieldId> := [IoDeviceId, NumberOfRelays, RelayList, NumberOfDigitalInputs, DigitalInputList]

  /** `fields` lists the fields `ids`, in that order. */
  predicate HasIds(fields: seq<DataField>, ids: seq<FieldId>)
  {
    |fields| == |ids| && forall k | 0 <= k < |fields| :: fields[k].id == ids[k]
  }

  /** Two lists of the same fields, in the same order. */
  predicate SameIds(a: seq<DataField>, b: seq<DataField>)
  {
    |a| == |b| && forall k | 0 <= k < |a| :: a[k].id == b[k].id
  }

  /** `RegisterDatafields`: the declared tables of revisions 1 and 2, all values empty. */
  function RegisterDatafields(): (table: map<int, seq<DataField>>)
    ensures table.Keys == {1, 2}
    ensures HasIds(table[1], Rev1Ids) && HasIds(table[2], Rev2Ids)
    // Revision 1 is fixed and contiguous: each field starts after the previous one's ordinal and value.
    ensures forall k | 0 <= k < 2 :: table[1][k + 1].index == table[1][k].index + OrdinalSize + table[1][k].size
    // Revision 2 declares its first three places the same way; the two after the relay list are left to layout.
    ensures forall k | 0 <= k < 2 :: table[2][k + 1].index == table[2][k].index + OrdinalSize + table[2][k].size
    ensures table[2][Rev2RelayListAt].size == 0 && table[2][Rev2InputListAt].size == 0
    ensures forall r, k | r in table && 0 <= k < |table[r]| :: table[r][k].value == ""
    ensures table[1][DeviceAt].index == Header.HeaderWidth && table[2][DeviceAt].index == Header.HeaderWidth
  {
    map[
      1 := [
        DataField(IoDeviceId, 20, 2, LeftPadded('0'), ""),
        DataField(RelayList, 24, 32, Unpadded, ""),
        DataField(DigitalInputList, 58, 32, Unpadded, "")],
      2 := [
        DataField(IoDeviceId, 20, 2, LeftPadded('0'), ""),
        DataField(NumberOfRelays, 24, 2, LeftPadded('0'), ""),
        DataField(RelayList, 28, 0, Unpadded, ""),
        DataField(NumberOfDigitalInputs, 0, 2, LeftPadded('0'), ""),
        DataField(DigitalInputList, 0, 0, Unpadded, "")]
    ]
  }

  /** The first position holding the field with id `id`: what a lookup by field id finds. */
  function Position(fields: seq<DataField>, id: FieldId): (k: nat)
    ensures k <= |fields|
    ensures k < |fields| ==> fields[k].id == id
    ensures forall j | 0 <= j < k :: fields[j].id != id
  {
    if fields == [] then 0
    else if fields[0].id == id then 0
    else 1 + Position(fields[1..], id)
  }

  /** The revision lists have the registered ids in the registered order. */
  predicate Shaped(fields1: seq<DataField>, fields2: seq<DataField>)
  {
    HasIds(fields1, Rev1Ids) && HasIds(fields2, Rev2Ids)
  }

  /** The position constants used below are the positions of the named fields. */
  lemma PositionsByName(fields1: seq<DataField>, fields2: seq<DataField>)
    requires Shaped(fields1, fields2)
    ensures Position(fields1, IoDeviceId) == DeviceAt && Position(fields2, IoDeviceId) == DeviceAt
    ensures Position(fields1, RelayList) == Rev1RelayListAt && Position(fields1, DigitalInputList) == Rev1InputListAt
    ensures Position(fields2, NumberOfRelays) == Rev2RelayCountAt && Position(fields2, RelayList) == Rev2RelayListAt
    ensures Position(fields2, NumberOfDigitalInputs) == Rev2InputCountAt && Position(fields2, DigitalInputList) == Rev2InputListAt
  {
    assert |fields1| == 3 && |fields2| == 5;
    assert fields1[0].id == IoDeviceId && fields1[1].id == RelayList && fields1[2].id == DigitalInputList;
    assert fields2[0].id == IoDeviceId && fields2[1].id == NumberOfRelays && fields2[2].id == RelayList;
    assert fields2[3].id == NumberOfDigitalInputs && fields2[4].id == DigitalInputList;
  }

  // Field access

  /** `SetValue(_intConverter.Convert, n)`: the field's text becomes `n`, padded to the field's
      size with the field's fill character; nothing else about the field changes. */
  function SetInt(f: DataField, n: nat): (g: DataField)
    ensures g == f.(value := g.value)
  {
    match f.padding
    case Unpadded => f.(value := NatToDigits(n))
    case LeftPadded(c) => f.(value := PadLeft(NatToDigits(n), if f.size < 0 then 0 else f.size, c))
  }

  /** With no padding or '0' padding the text reads back as `n`; with '0' padding a number that
      fits fills the field exactly. */
  lemma SetIntReadsBack(f: DataField, n: nat)
    ensures f.padding in {Unpadded, LeftPadded('0')} ==> ParseNat(SetInt(f, n).value) == Some(n)
    ensures f.padding == LeftPadded('0') && 1 <= f.size && n < Pow10(f.size) ==> |SetInt(f, n).value| == f.size
  {
    match f.padding
    case Unpadded =>
      ParseFormat(n, 0);
    case LeftPadded(c) =>
      var width: nat := if f.size < 0 then 0 else f.size;
      ParseFormat(n, width);
      FitsWidth(n, width);
  }

  lemma FitsWidth(n: nat, width: nat)
    ensures 1 <= width && n < Pow10(width) ==> |FormatNat(n, width)| == width
  {
    if 1 <= width && n < Pow10(width) {
      FormatWidth(n, width);
    }
  }

  /** `GetValue(field, package)`: the `size` characters at `index`, or none when they are not all there. */
  function GetValue(f: DataField, package: string): (r: Option<string>)
    ensures r.Some? <==> 0 <= f.index && 0 <= f.size && f.index + f.size <= |package|
    ensures r.Some? ==> |r.value| == f.size
  {
    if 0 <= f.index && 0 <= f.size && f.index + f.size <= |package|
    then Some(package[f.index..f.index + f.size])
    else None
  }

  // The packed text

  /** What Pack's loop appends after the header: for each field, its ordinal then its value, so it
      is empty exactly when there are no fields (BodyLength gives its length). */
  function Body(fields: seq<DataField>): (r: string)
    ensures r == [] <==> fields == []
  {
    if fields == [] then ""
    else Body(fields[..|fields| - 1]) + Ordinal(|fields|) + fields[|fields| - 1].value
  }

  /** Σ (2 + |value|) over the fields. */
  function WireWidth(fields: seq<DataField>): nat
  {
    if fields == [] then 0
    else WireWidth(fields[..|fields| - 1]) + OrdinalSize + |fields[|fields| - 1].value|
  }

  lemma {:induction false} BodyLength(fields: seq<DataField>)
    requires |fields| < 100
    ensures |Body(fields)| == WireWidth(fields)
  {
    if fields != [] {
      BodyLength(fields[..|fields| - 1]);
    }
  }

  /** The body of a shorter prefix of the fields is a prefix of the body. */
  lemma {:induction false} BodyPrefix(fields: seq<DataField>, k: nat)
    requires k <= |fields|
    ensures Body(fields[..k]) <= Body(fields)
    decreases |fields| - k
  {
    if k < |fields| {
      var n := |fields| - 1;
      assert fields[..n][..k] == fields[..k];
      BodyPrefix(fields[..n], k);
      assert fields[..|fields|] == fields;
    } else {
      assert fields[..k] == fields;
    }
  }

  /** Field `k` of the packed body: its ordinal `k + 1`, then its value, after the fields before it. */
  lemma {:induction false} FieldPlacement(fields: seq<DataField>, k: nat)
    requires k < |fields| < 100
    ensures var at := WireWidth(fields[..k]);
            at + OrdinalSize + |fields[k].value| <= |Body(fields)| &&
            Body(fields)[at..at + OrdinalSize] == Ordinal(k + 1) &&
            Body(fields)[at + OrdinalSize..at + OrdinalSize + |fields[k].value|] == fields[k].value
  {
    FieldInBody(fields, k);
    BodyLength(fields[..k]);
    PieceSlices(Body(fields[..k]), Ordinal(k + 1), fields[k].value, Body(fields), WireWidth(fields[..k]));
  }

  /** The body up to field `k`, then its ordinal and value, is a prefix of the whole body. */
  lemma {:induction false} FieldInBody(fields: seq<DataField>, k: nat)
    requires k < |fields|
    ensures Body(fields[..k]) + Ordinal(k + 1) + fields[k].value <= Body(fields)
  {
    BodyStep(fields, k);
    BodyPrefix(fields, k + 1);
  }

  lemma {:induction false} BodyStep(fields: seq<DataField>, k: nat)
    requires k < |fields|
    ensures Body(fields[..k + 1]) == Body(fields[..k]) + Ordinal(k + 1) + fields[k].value
  {
    assert fields[..k + 1][..k] == fields[..k];
  }

  lemma {:induction false} PieceSlices(before: string, ordinal: string, value: string, whole: string, at: nat)
    requires before + ordinal + value <= whole && |ordinal| == OrdinalSize && at == |before|
    ensures at + OrdinalSize + |value| <= |whole|
    ensures whole[at..at + OrdinalSize] == ordinal
    ensures whole[at + OrdinalSize..at + OrdinalSize + |value|] == value
  {
    var p := before + ordinal + value;
    assert p[|before|..|before| + OrdinalSize] == ordinal;
    assert p[|before| + OrdinalSize..|p|] == value;
  }

  /** A revision-1 body: device id "05", one relay `r`, one digital input `d`, each behind its
      ordinal, "01" "05" "02" r "03" d. */
  lemma Rev1BodyExample(r: Relay, d: DigitalInput)
    ensures Body([DataField(IoDeviceId, 20, 2, LeftPadded('0'), "05"),
                  DataField(RelayList, 24, 32, Unpadded, r),
                  DataField(DigitalInputList, 58, 32, Unpadded, d)]) == "0105" + "02" + r + "03" + d
  {
    var fields := [DataField(IoDeviceId, 20, 2, LeftPadded('0'), "05"),
                   DataField(RelayList, 24, 32, Unpadded, r),
                   DataField(DigitalInputList, 58, 32, Unpadded, d)];
    OrdinalTexts();
    assert fields[..2][..1] == fields[..1] && fields[..1][..0] == [];
    assert Body(fields[..1]) == "01" + "05";
    assert Body(fields[..2]) == "01" + "05" + "02" + r;
  }

  lemma OrdinalTexts()
    ensures Ordinal(1) == "01" && Ordinal(2) == "02" && Ordinal(3) == "03"
    ensures Ordinal(4) == "04" && Ordinal(5) == "05"
  {
  }

  // The state of one MID 0215 object

  /** HeaderData, the Relays and DigitalInputs lists, and the revision 1 and 2 field lists. */
  datatype State = State(
    header: Header.Header,
    relays: seq<Relay>,
    digitalInputs: seq<DigitalInput>,
    fields1: seq<DataField>,
    fields2: seq<DataField>)

  predicate WellFormed(s: State)
  {
    Shaped(s.fields1, s.fields2) && s.header.mid == Mid
  }

  /** The object the constructor `MID_0215(revision)` creates: the requested revision, no relays,
      no digital inputs, and the registered tables. */
  function Initial(revision: int): (s: State)
    ensures WellFormed(s) && s.header.revision == revision && s.relays == [] && s.digitalInputs == []
    ensures s.fields1 == RegisterDatafields()[1] && s.fields2 == RegisterDatafields()[2]
  {
    var table := RegisterDatafields();
    State(Header.Header(0, Mid, revision, "         "), [], [], table[1], table[2])
  }

  /** `RevisionsByFields[revision]`: only revisions 1 and 2 have a list. */
  function FieldsOf(s: State, revision: int): Option<seq<DataField>>
  {
    if revision == 1 then Some(s.fields1) else if revision == 2 then Some(s.fields2) else None
  }

  /** The `IODeviceId` setter, on the list of the current revision. */
  function WithIoDeviceId(s: State, id: nat): (r: Result<State>)
    requires WellFormed(s)
    ensures r.Success? <==> s.header.revision in {1, 2}
    ensures r.Success? ==> WellFormed(r.value)
    ensures r.Success? ==> r.value.header == s.header && r.value.relays == s.relays &&
                           r.value.digitalInputs == s.digitalInputs
    ensures r.Success? && s.header.revision == 1 ==>
              r.value.fields1 == s.fields1[DeviceAt := SetInt(s.fields1[DeviceAt], id)] && r.value.fields2 == s.fields2
    ensures r.Success? && s.header.revision == 2 ==>
              r.value.fields2 == s.fields2[DeviceAt := SetInt(s.fields2[DeviceAt], id)] && r.value.fields1 == s.fields1
  {
    if s.header.revision == 1 then Success(s.(fields1 := s.fields1[DeviceAt := SetInt(s.fields1[DeviceAt], id)]))
    else if s.header.revision == 2 then Success(s.(fields2 := s.fields2[DeviceAt := SetInt(s.fields2[DeviceAt], id)]))
    else Failure(UnsupportedRevision)
  }

  /** The `IODeviceId` getter: there is an id only for revisions 1 and 2, and only when the
      current revision's device field holds a number. */
  function IoDeviceIdOf(s: State): (r: Option<nat>)
    requires WellFormed(s)
    ensures r.Some? <==> s.header.revision in {1, 2} && ParseNat(FieldsOf(s, s.header.revision).value[DeviceAt].value).Some?
  {
    match FieldsOf(s, s.header.revision)
    case None => None
    case Some(fields) => ParseNat(fields[DeviceAt].value)
  }

  /** The device id reads back as set and, below 100, fills its two characters. */
  lemma IoDeviceIdReadsBack(s: State, id: nat)
    requires WellFormed(s) && s.header.revision in {1, 2}
    requires s.fields1[DeviceAt].padding == LeftPadded('0') && s.fields1[DeviceAt].size == 2
    requires s.fields2[DeviceAt].padding == LeftPadded('0') && s.fields2[DeviceAt].size == 2
    ensures WithIoDeviceId(s, id).Success?
    ensures IoDeviceIdOf(WithIoDeviceId(s, id).value) == Some(id)
    ensures id < 100 ==> |FieldsOf(WithIoDeviceId(s, id).value, s.header.revision).value[DeviceAt].value| == 2
  {
    assert Pow10(2) == 100;
    SetIntReadsBack(s.fields1[DeviceAt], id);
    SetIntReadsBack(s.fields2[DeviceAt], id);
  }

  // Pack

  /** Revision-2 Pack, before writing: counts from the list lengths, lists sized `count * 4`,
      the digital-input count placed after the relay list and its list 2 characters later. */
  function Rev2PackLayout(t: seq<DataField>, relays: seq<Relay>, inputs: seq<DigitalInput>): (r: seq<DataField>)
    requires |t| == 5
    ensures |r| == 5 && SameIds(r, t)
  {
    var relayCount := SetInt(t[Rev2RelayCountAt], |relays|);
    var relayList := t[Rev2RelayListAt].(size := |relays| * ItemWidth, value := Encode(relays));
    var inputCount := SetInt(t[Rev2InputCountAt], |inputs|).(index := relayList.index + relayList.size);
    var inputList := t[Rev2InputListAt].(
      index := inputCount.index + CountWidth, size := |inputs| * ItemWidth, value := Encode(inputs));
    var r := [t[DeviceAt], relayCount, relayList, inputCount, inputList];
    FiveIds(r, t);
    r
  }

  // Solver helpers for the five-entry revision-2 list: they spell out a quantifier over a
  // literal five-element sequence, which the solver otherwise unfolds at great cost.

  /** Five entries with the ids of five others, position by position, list the same fields. */
  lemma FiveIds(r: seq<DataField>, t: seq<DataField>)
    requires |r| == 5 && |t| == 5
    requires r[0].id == t[0].id && r[1].id == t[1].id && r[2].id == t[2].id
    requires r[3].id == t[3].id && r[4].id == t[4].id
    ensures SameIds(r, t)
  {
  }

  /** Five entries whose slices are each in the package all have their slices. */
  lemma FiveSlices(l: seq<DataField>, package: string)
    requires |l| == 5
    requires GetValue(l[0], package).Some? && GetValue(l[1], package).Some? && GetValue(l[2], package).Some?
    requires GetValue(l[3], package).Some? && GetValue(l[4], package).Some?
    ensures forall k | 0 <= k < 5 :: GetValue(l[k], package).Some?
  {
  }

  /** Revision-1 Pack, before writing: only the two list values change; places and sizes stay as declared. */
  function Rev1PackLayout(t: seq<DataField>, relays: seq<Relay>, inputs: seq<DigitalInput>): (r: seq<DataField>)
    requires |t| == 3
    ensures |r| == 3 && SameIds(r, t)
  {
    var r := [t[DeviceAt],
              t[Rev1RelayListAt].(value := Encode(relays)),
              t[Rev1InputListAt].(value := Encode(inputs))];
    assert forall k | 0 <= k < 3 :: r[k].id == t[k].id;
    r
  }

  /** Only the two list values change in revision 1: every index, size and the device field stay. */
  lemma Rev1PackKeepsTable(t: seq<DataField>, relays: seq<Relay>, inputs: seq<DigitalInput>)
    requires |t| == 3
    ensures var r := Rev1PackLayout(t, relays, inputs);
            (forall k | 0 <= k < 3 :: r[k].index == t[k].index && r[k].size == t[k].size) &&
            r[DeviceAt] == t[DeviceAt] &&
            ItemLists.Decode(r[Rev1RelayListAt].value) == Some(relays) &&
            ItemLists.Decode(r[Rev1InputListAt].value) == Some(inputs)
  {
    DecodeEncode(relays);
    DecodeEncode(inputs);
  }

  /** The counts Pack writes read back as the list lengths; each list's size is the width of its text,
      which decodes back to the list; the relay list stays where it was declared. */
  lemma Rev2PackCountsAndSizes(t: seq<DataField>, relays: seq<Relay>, inputs: seq<DigitalInput>)
    requires |t| == 5
    requires t[Rev2RelayCountAt].padding == LeftPadded('0') && t[Rev2InputCountAt].padding == LeftPadded('0')
    requires t[Rev2RelayCountAt].size == CountWidth && t[Rev2InputCountAt].size == CountWidth
    ensures var r := Rev2PackLayout(t, relays, inputs);
            ParseNat(r[Rev2RelayCountAt].value) == Some(|relays|) &&
            ParseNat(r[Rev2InputCountAt].value) == Some(|inputs|) &&
            (|relays| < 100 ==> |r[Rev2RelayCountAt].value| == CountWidth) &&
            (|inputs| < 100 ==> |r[Rev2InputCountAt].value| == CountWidth) &&
            r[Rev2RelayListAt].size == |r[Rev2RelayListAt].value| == ItemWidth * |relays| &&
            r[Rev2InputListAt].size == |r[Rev2InputListAt].value| == ItemWidth * |inputs| &&
            ItemLists.Decode(r[Rev2RelayListAt].value) == Some(relays) &&
            ItemLists.Decode(r[Rev2InputListAt].value) == Some(inputs) &&
            r[DeviceAt] == t[DeviceAt] && r[Rev2RelayListAt].index == t[Rev2RelayListAt].index
  {
    assert Pow10(2) == 100;
    SetIntReadsBack(t[Rev2RelayCountAt], |relays|);
    SetIntReadsBack(t[Rev2InputCountAt], |inputs|);
    DecodeEncode(relays);
    DecodeEncode(inputs);
  }

  /** The later fields follow the relay list: a change in relay count moves the digital-input
      count and the digital-input list by 4 characters per relay, both by the same amount. */
  lemma Rev2PackShift(t: seq<DataField>, relays: seq<Relay>, otherRelays: seq<Relay>, inputs: seq<DigitalInput>)
    requires |t| == 5
    ensures var r, q := Rev2PackLayout(t, relays, inputs), Rev2PackLayout(t, otherRelays, inputs);
            r[Rev2InputCountAt].index == t[Rev2RelayListAt].index + ItemWidth * |relays| &&
            r[Rev2InputListAt].index == r[Rev2InputCountAt].index + CountWidth &&
            r[Rev2InputCountAt].index - q[Rev2InputCountAt].index == ItemWidth * (|relays| - |otherRelays|) &&
            r[Rev2InputListAt].index - q[Rev2InputListAt].index == ItemWidth * (|relays| - |otherRelays|)
  {
  }

  /** The object after Pack: revision above 1 lays out list 2; otherwise the revision becomes 1
      and list 1 takes the list texts. */
  function PackState(s: State): (p: State)
    requires WellFormed(s)
    ensures WellFormed(p)
    ensures p.relays == s.relays && p.digitalInputs == s.digitalInputs
    ensures p.header.revision == if s.header.revision > 1 then s.header.revision else 1
    ensures p.header == s.header.(revision := p.header.revision)
  {
    if s.header.revision > 1 then s.(fields2 := Rev2PackLayout(s.fields2, s.relays, s.digitalInputs))
    else s.(header := s.header.(revision := 1), fields1 := Rev1PackLayout(s.fields1, s.relays, s.digitalInputs))
  }

  /** The package: the header, carrying the total length, followed by the body. */
  function Frame(h: Header.Header, body: string): (r: string)
    ensures |r| >= |body| && r[|r| - |body|..] == body
    ensures Header.Encodable(h.(length := Header.HeaderWidth + |body|)) ==> |r| == Header.HeaderWidth + |body|
  {
    Header.Encode(h.(length := Header.HeaderWidth + |body|)) + body
  }

  /** What Pack returns: the framed body of the current revision's list, or a failure when
      that revision has no list. */
  function PackOutput(s: State): (r: Result<string>)
    requires WellFormed(s)
    ensures r.Success? <==> s.header.revision <= 2
    ensures r.Failure? ==> r.error == UnsupportedRevision
  {
    var p := PackState(s);
    match FieldsOf(p, p.header.revision)
    case None => Failure(UnsupportedRevision)
    case Some(fields) => Success(Frame(p.header, Body(fields)))
  }

  /** The list Pack writes, for a revision that has one. */
  function PackedFields(s: State): (fields: seq<DataField>)
    requires WellFormed(s) && s.header.revision <= 2
    ensures |fields| < 100
  {
    var p := PackState(s);
    if p.header.revision == 1 then p.fields1 else p.fields2
  }

  /** What Pack returns for a revision that has a list: the framed body of the packed list. When
      the routing characters and the total length fit the header, the package is 20 characters
      longer than the body, carries its own length in its header, reads back the object's header
      (revision 1 or 2) and routes to MID 0215. */
  lemma PackOutputFrames(s: State)
    requires WellFormed(s) && s.header.revision <= 2
    ensures PackOutput(s) == Success(Frame(PackState(s).header, Body(PackedFields(s))))
    ensures var h, body := PackState(s).header, Body(PackedFields(s));
            Header.HeaderWidth + |body| < 10000 && |h.spare| == Header.SpareWidth ==>
              var out := PackOutput(s).value;
              |out| == Header.HeaderWidth + |body| && out[Header.HeaderWidth..] == body &&
              Header.Decode(out) == Some(h.(length := |out|)) && h.revision in {1, 2} &&
              Header.HasMid(out, Mid)
  {
    var p := PackState(s);
    assert FieldsOf(p, p.header.revision) == Some(PackedFields(s));
    var body := Body(PackedFields(s));
    if Header.HeaderWidth + |body| < 10000 && |p.header.spare| == Header.SpareWidth {
      FrameRoutesBack(p.header, body);
    }
  }

  /** A framed package routes back to its MID, reads back its header, and its length field is
      its length. */
  lemma FrameRoutesBack(h: Header.Header, body: string)
    requires Header.HeaderWidth + |body| < 10000 && h.mid < 10000 && 1 <= h.revision < 1000
    requires |h.spare| == Header.SpareWidth
    ensures var p := Frame(h, body);
            |p| == Header.HeaderWidth + |body| && p[Header.HeaderWidth..] == body &&
            Header.Decode(p) == Some(h.(length := |p|)) && Header.HasMid(p, h.mid)
  {
    var h' := h.(length := Header.HeaderWidth + |body|);
    Header.DecodeEncode(h', body);
  }

  /** Field `k` of a body behind a 20-character header: its ordinal `k + 1` and then its value,
      starting 20 + Σ(2 + |value|) of the fields before it into the package. */
  lemma {:induction false} FieldBehindHeader(header: string, fields: seq<DataField>, k: nat)
    requires |header| == Header.HeaderWidth && k < |fields| < 100
    ensures var pkg, at := header + Body(fields), Header.HeaderWidth + WireWidth(fields[..k]);
            at + OrdinalSize + |fields[k].value| <= |pkg| &&
            pkg[at..at + OrdinalSize] == Ordinal(k + 1) &&
            pkg[at + OrdinalSize..at + OrdinalSize + |fields[k].value|] == fields[k].value
  {
    FieldPlacement(fields, k);
    OrdinalWidth(k + 1);
    PiecesBehind(header, Body(fields), WireWidth(fields[..k]), Ordinal(k + 1), fields[k].value);
  }

  lemma {:induction false} PiecesBehind(header: string, body: string, at: nat, ordinal: string, value: string)
    requires |ordinal| == OrdinalSize && at + OrdinalSize + |value| <= |body|
    requires body[at..at + OrdinalSize] == ordinal
    requires body[at + OrdinalSize..at + OrdinalSize + |value|] == value
    ensures var pkg, from := header + body, |header| + at;
            from + OrdinalSize + |value| <= |pkg| &&
            pkg[from..from + OrdinalSize] == ordinal &&
            pkg[from + OrdinalSize..from + OrdinalSize + |value|] == value
  {
    ConcatSlice(header, body, at, at + OrdinalSize);
    ConcatSlice(header, body, at + OrdinalSize, at + OrdinalSize + |value|);
  }

  lemma {:induction false} ConcatSlice(header: string, body: string, a: nat, b: nat)
    requires a <= b <= |body|
    ensures (header + body)[|header| + a..|header| + b] == body[a..b]
  {
    assert forall i | a <= i < b :: (header + body)[|header| + i] == body[i];
  }

  /** Field `k` of a list starts after the fields before it: Σ(2 + |value|) plus its own 2-character ordinal. */
  lemma WireWidthStep(fields: seq<DataField>, k: nat)
    requires k < |fields|
    ensures WireWidth(fields[..k + 1]) == WireWidth(fields[..k]) + OrdinalSize + |fields[k].value|
  {
    assert fields[..k + 1][..k] == fields[..k];
  }

  /** Revision 1 with full lists (8 items each) behind a 20-character header: each declared index
      is where Pack writes that field's ordinal, and the value follows 2 characters later (the
      20/24/58 of the table). */
  lemma Rev1DeclaredIndexesMarkOrdinals(s: State, header: string, k: nat)
    requires WellFormed(s) && s.header.revision <= 1 && |header| == Header.HeaderWidth
    requires forall j | 0 <= j < 3 :: s.fields1[j].index == RegisterDatafields()[1][j].index
    requires forall j | 0 <= j < 3 :: s.fields1[j].size == RegisterDatafields()[1][j].size
    requires |s.fields1[DeviceAt].value| == 2 && |s.relays| == 8 && |s.digitalInputs| == 8
    requires k < 3
    ensures var fields := PackState(s).fields1;
            var pkg, at := header + Body(fields), fields[k].index;
            |fields[k].value| == fields[k].size &&
            0 <= at && at + OrdinalSize + fields[k].size <= |pkg| &&
            pkg[at..at + OrdinalSize] == Ordinal(k + 1) &&
            pkg[at + OrdinalSize..at + OrdinalSize + fields[k].size] == fields[k].value
  {
    var fields := PackState(s).fields1;
    Rev1PackedShape(s);
    Rev1Offsets(fields);
    FieldBehindHeader(header, fields, k);
  }

  /** The revision-1 list Pack writes with full lists: the declared places and sizes, values that fill them. */
  lemma Rev1PackedShape(s: State)
    requires WellFormed(s) && s.header.revision <= 1
    requires forall j | 0 <= j < 3 :: s.fields1[j].index == RegisterDatafields()[1][j].index
    requires forall j | 0 <= j < 3 :: s.fields1[j].size == RegisterDatafields()[1][j].size
    requires |s.fields1[DeviceAt].value| == 2 && |s.relays| == 8 && |s.digitalInputs| == 8
    ensures var fields := PackState(s).fields1;
            |fields| == 3 &&
            fields[0].index == 20 && |fields[0].value| == 2 == fields[0].size &&
            fields[1].index == 24 && |fields[1].value| == 32 == fields[1].size &&
            fields[2].index == 58 && |fields[2].value| == 32 == fields[2].size
  {
    var t := RegisterDatafields()[1];
    assert t[0].index == 20 && t[0].size == 2 && t[1].index == 24 && t[1].size == 32 && t[2].index == 58 && t[2].size == 32;
  }

  /** With values 2, 32 and 32 wide, the three fields start 0, 4 and 38 characters into the body. */
  lemma Rev1Offsets(fields: seq<DataField>)
    requires |fields| == 3 && |fields[0].value| == 2 && |fields[1].value| == 32
    ensures WireWidth(fields[..0]) == 0 && WireWidth(fields[..1]) == 4 && WireWidth(fields[..2]) == 38
  {
    assert fields[..0] == [];
    WireWidthStep(fields, 0);
    WireWidthStep(fields, 1);
  }

  /** Revision 2 behind a 20-character header: the relay list's declared index (28) is where its
      ordinal is written, but the two recomputed indexes are not: the digital-input count's
      ordinal sits 2 characters after its index and the digital-input list's 4 after its index. */
  lemma Rev2RecomputedIndexesLag(s: State, header: string)
    requires WellFormed(s) && s.header.revision == 2 && |header| == Header.HeaderWidth
    requires s.fields2[Rev2RelayListAt].index == 28 && |s.fields2[DeviceAt].value| == 2
    requires s.fields2[Rev2RelayCountAt].padding == LeftPadded('0') && s.fields2[Rev2RelayCountAt].size == CountWidth
    requires s.fields2[Rev2InputCountAt].padding == LeftPadded('0') && s.fields2[Rev2InputCountAt].size == CountWidth
    requires |s.relays| < 100 && |s.digitalInputs| < 100
    ensures var fields := PackState(s).fields2;
            var pkg := header + Body(fields);
            fields[Rev2RelayListAt].index + OrdinalSize <= |pkg| &&
            pkg[fields[Rev2RelayListAt].index..fields[Rev2RelayListAt].index + OrdinalSize] == Ordinal(3) &&
            fields[Rev2InputCountAt].index + 2 + OrdinalSize <= |pkg| &&
            pkg[fields[Rev2InputCountAt].index + 2..fields[Rev2InputCountAt].index + 2 + OrdinalSize] == Ordinal(4) &&
            fields[Rev2InputListAt].index + 4 + OrdinalSize <= |pkg| &&
            pkg[fields[Rev2InputListAt].index + 4..fields[Rev2InputListAt].index + 4 + OrdinalSize] == Ordinal(5)
  {
    Rev2PackCountsAndSizes(s.fields2, s.relays, s.digitalInputs);
    Rev2OrdinalsBehindHeader(header, PackState(s).fields2);
  }

  lemma {:induction false} Rev2OrdinalsBehindHeader(header: string, fields: seq<DataField>)
    requires |header| == Header.HeaderWidth && |fields| == 5 && fields[Rev2RelayListAt].index == 28
    requires |fields[DeviceAt].value| == 2 && |fields[Rev2RelayCountAt].value| == 2 && |fields[Rev2InputCountAt].value| == 2
    requires fields[Rev2InputCountAt].index == fields[Rev2RelayListAt].index + |fields[Rev2RelayListAt].value|
    requires fields[Rev2InputListAt].index == fields[Rev2InputCountAt].index + CountWidth
    ensures var pkg := header + Body(fields);
            fields[Rev2RelayListAt].index + OrdinalSize <= |pkg| &&
            pkg[fields[Rev2RelayListAt].index..fields[Rev2RelayListAt].index + OrdinalSize] == Ordinal(3) &&
            fields[Rev2InputCountAt].index + 2 + OrdinalSize <= |pkg| &&
            pkg[fields[Rev2InputCountAt].index + 2..fields[Rev2InputCountAt].index + 2 + OrdinalSize] == Ordinal(4) &&
            fields[Rev2InputListAt].index + 4 + OrdinalSize <= |pkg| &&
            pkg[fields[Rev2InputListAt].index + 4..fields[Rev2InputListAt].index + 4 + OrdinalSize] == Ordinal(5)
  {
    assert fields[..0] == [];
    WireWidthStep(fields, 0);
    WireWidthStep(fields, 1);
    WireWidthStep(fields, 2);
    WireWidthStep(fields, 3);
    FieldBehindHeader(header, fields, 2);
    FieldBehindHeader(header, fields, 3);
    FieldBehindHeader(header, fields, 4);
  }

  /** Two relays and one digital input on the registered revision-2 table: the relay list takes 8
      characters at 28, the digital-input count moves to 36 and its list, 4 characters wide, to 38. */
  lemma Rev2PackExample(r1: Relay, r2: Relay, d: DigitalInput)
    ensures var r := Rev2PackLayout(RegisterDatafields()[2], [r1, r2], [d]);
            r[Rev2RelayCountAt].value == "02" && r[Rev2InputCountAt].value == "01" &&
            r[Rev2RelayListAt].index == 28 && r[Rev2RelayListAt].size == 8 && r[Rev2RelayListAt].value == r1 + r2 &&
            r[Rev2InputCountAt].index == 36 &&
            r[Rev2InputListAt].index == 38 && r[Rev2InputListAt].size == 4 && r[Rev2InputListAt].value == d
  {
    CountTexts();
    ListTexts(r1, r2, d);
  }

  lemma CountTexts()
    ensures PadLeft(NatToDigits(2), 2, '0') == "02" && PadLeft(NatToDigits(1), 2, '0') == "01"
  {
    assert NatToDigits(2) == "2" && NatToDigits(1) == "1";
    assert seq(1, _ => '0') == "0";
  }

  lemma ListTexts(r1: Relay, r2: Relay, d: DigitalInput)
    ensures Encode([r1, r2]) == r1 + r2 && Encode([d]) == d
  {
    assert [r1, r2][1..] == [r2] && [r2][1..] == [] && [d][1..] == [];
    assert Encode([r1, r2]) == r1 + Encode([r2]) && Encode([r2]) == r2 + Encode([]);
    assert Encode([d]) == d + Encode([]);
  }

  // Parse

  /** Revision-2 Parse, before reading: the relay list sized from the count read from the package,
      the digital-input count placed after it, and the digital-input list moved 2 characters on from
      its own previous index and stretched to the end of the package. */
  function Rev2ParseLayout(t: seq<DataField>, package: string, count: nat): (r: seq<DataField>)
    requires |t| == 5
    ensures |r| == 5 && SameIds(r, t)
  {
    var relayList := t[Rev2RelayListAt].(size := count * ItemWidth);
    var inputCount := t[Rev2InputCountAt].(index := relayList.index + relayList.size);
    var moved := t[Rev2InputListAt].(index := t[Rev2InputListAt].index + CountWidth);
    var inputList := moved.(size := |package| - moved.index);
    var r := [t[DeviceAt], t[Rev2RelayCountAt], relayList, inputCount, inputList];
    FiveIds(r, t);
    r
  }

  /** The revision-2 list after the re-layout of a package of revision above 1: fails when the
      relay count is not in the package or not a number. */
  function Rev2Resize(t: seq<DataField>, package: string): (r: Result<seq<DataField>>)
    requires |t| == 5
    ensures r.Success? <==> GetValue(t[Rev2RelayCountAt], package).Some? &&
                            ParseNat(GetValue(t[Rev2RelayCountAt], package).value).Some?
    ensures r.Success? ==> SameIds(r.value, t)
    ensures r.Failure? ==> r.error == MalformedField
  {
    match GetValue(t[Rev2RelayCountAt], package)
    case None => Failure(MalformedField)
    case Some(text) =>
      match ParseNat(text)
      case None => Failure(MalformedField)
      case Some(count) => Success(Rev2ParseLayout(t, package, count))
  }

  /** The reading loop: every field's value becomes its slice of the package; it fails as soon as
      one slice is not there. */
  function ReadAll(t: seq<DataField>, package: string): (r: Result<seq<DataField>>)
    ensures r.Success? <==> forall k | 0 <= k < |t| :: GetValue(t[k], package).Some?
    ensures r.Failure? ==> r.error == MalformedField
    ensures r.Success? ==> |r.value| == |t|
    ensures r.Success? ==> forall k | 0 <= k < |t| :: r.value[k] == t[k].(value := GetValue(t[k], package).value)
  {
    if t == [] then Success([])
    else
      match GetValue(t[0], package)
      case None => Failure(MalformedField)
      case Some(v) =>
        match ReadAll(t[1..], package)
        case Failure(e) => Failure(e)
        case Success(rest) =>
          var r := [t[0].(value := v)] + rest;
          assert forall k | 1 <= k < |t| :: r[k] == rest[k - 1] && t[k] == t[1..][k - 1];
          Success(r)
  }

  /** The list converters' decoding, failing on text that is not whole items. */
  function ListOf(text: string): (r: Result<seq<Item>>)
    ensures r.Success? ==> Encode(r.value) == text && ItemWidth * |r.value| == |text|
    ensures r.Failure? <==> |text| % ItemWidth != 0
  {
    DecodeFailsOnPartialItem(text);
    match ItemLists.Decode(text)
    case None => Failure(MalformedField)
    case Some(items) =>
      EncodeDecode(text);
      Success(items)
  }

  /** Parse's first steps once the header `h` is read: the header is taken over and, for a
      revision above 1, revision 2's list is re-laid out from the package's relay count. */
  function ParseLayout(s: State, h: Header.Header, package: string): (r: Result<State>)
    requires WellFormed(s) && h.mid == Mid
    ensures r.Success? ==> WellFormed(r.value) && r.value == s.(header := h, fields2 := r.value.fields2)
    ensures h.revision <= 1 ==> r == Success(s.(header := h))
    ensures h.revision > 1 ==> (r.Success? <==> Rev2Resize(s.fields2, package).Success?)
    ensures h.revision > 1 && r.Success? ==> r.value.fields2 == Rev2Resize(s.fields2, package).value
    ensures r.Failure? ==> r.error == MalformedField
  {
    if h.revision > 1 then
      match Rev2Resize(s.fields2, package)
      case Failure(e) => Failure(e)
      case Success(t) => Success(s.(header := h, fields2 := t))
    else Success(s.(header := h))
  }

  /** Parse's reading loop on the current revision's list, which becomes what was read; there is
      no list to read for a revision other than 1 or 2. */
  function ParseFields(s: State, package: string): (r: Result<State>)
    requires WellFormed(s)
    ensures r.Success? <==> s.header.revision in {1, 2} && ReadAll(FieldsOf(s, s.header.revision).value, package).Success?
    ensures r.Success? ==> WellFormed(r.value)
    ensures r.Success? && s.header.revision == 1 ==> r.value == s.(fields1 := ReadAll(s.fields1, package).value)
    ensures r.Success? && s.header.revision == 2 ==> r.value == s.(fields2 := ReadAll(s.fields2, package).value)
    ensures s.header.revision !in {1, 2} ==> r == Failure(UnsupportedRevision)
    ensures s.header.revision in {1, 2} && r.Failure? ==> r.error == MalformedField
  {
    match FieldsOf(s, s.header.revision)
    case None => Failure(UnsupportedRevision)
    case Some(t) =>
      match ReadAll(t, package)
      case Failure(e) => Failure(e)
      case Success(read) => Success(if s.header.revision == 1 then s.(fields1 := read) else s.(fields2 := read))
  }

  /** Parse's last step: the relay and digital-input lists become the decoding of revision 2's
      two list fields, whatever the revision. */
  function ParseLists(s: State): (r: Result<State>)
    requires WellFormed(s)
    ensures r.Success? <==> |s.fields2[Rev2RelayListAt].value| % ItemWidth == 0 &&
                            |s.fields2[Rev2InputListAt].value| % ItemWidth == 0
    ensures r.Success? ==> r.value == s.(relays := r.value.relays, digitalInputs := r.value.digitalInputs)
    ensures r.Success? ==> Encode(r.value.relays) == s.fields2[Rev2RelayListAt].value &&
                           Encode(r.value.digitalInputs) == s.fields2[Rev2InputListAt].value
    ensures r.Success? ==> WellFormed(r.value)
    ensures r.Failure? ==> r.error == MalformedField
  {
    var relays :- ListOf(s.fields2[Rev2RelayListAt].value);
    var inputs :- ListOf(s.fields2[Rev2InputListAt].value);
    Success(s.(relays := relays, digitalInputs := inputs))
  }

  /** The object after Parse of a package carrying MID 0215: the header read, revision 2's list
      re-laid out when the revision is above 1, the current revision's fields read, and the relay and
      digital-input lists decoded from revision 2's list fields. */
  function ParseSpec(s: State, package: string): (r: Result<State>)
    requires WellFormed(s) && Header.HasMid(package, Mid)
    ensures r.Success? ==> WellFormed(r.value)
  {
    match Header.Decode(package)
    case None => Failure(MalformedHeader)
    case Some(h) =>
      var s1 :- ParseLayout(s, h, package);
      var s2 :- ParseFields(s1, package);
      ParseLists(s2)
  }

  /** Parse fails on a malformed header, and succeeds only for revisions 1 and 2, leaving the
      header read from the package. */
  lemma ParseOutcomes(s: State, package: string)
    requires WellFormed(s) && Header.HasMid(package, Mid)
    ensures Header.Decode(package).None? ==> ParseSpec(s, package) == Failure(MalformedHeader)
    ensures ParseSpec(s, package).Success? ==>
              Header.Decode(package).Some? &&
              ParseSpec(s, package).value.header == Header.Decode(package).value &&
              ParseSpec(s, package).value.header.revision in {1, 2}
    ensures Header.Decode(package).Some? && Header.Decode(package).value.revision !in {1, 2} &&
            (Header.Decode(package).value.revision <= 1 || Rev2Resize(s.fields2, package).Success?) ==>
              ParseSpec(s, package) == Failure(UnsupportedRevision)
  {
    if Header.Decode(package).Some? {
      var h := Header.Decode(package).value;
      MidOfDecoded(package);
      var s1 := ParseLayout(s, h, package);
      if s1.Success? {
        var s2 := ParseFields(s1.value, package);
      }
    }
  }

  /** A successful Parse is its three steps, each succeeding in turn. */
  lemma ParseSteps(s: State, package: string)
    requires WellFormed(s) && Header.HasMid(package, Mid) && ParseSpec(s, package).Success?
    ensures Header.Decode(package).Some? && Header.Decode(package).value.mid == Mid
    ensures var s1 := ParseLayout(s, Header.Decode(package).value, package);
            s1.Success? && ParseFields(s1.value, package).Success? &&
            ParseSpec(s, package) == ParseLists(ParseFields(s1.value, package).value)
  {
    MidOfDecoded(package);
  }

  /** The MID a template routes on is the MID of the decoded header. */
  lemma MidOfDecoded(package: string)
    requires Header.Decode(package).Some?
    ensures Header.MidOf(package) == Some(Header.Decode(package).value.mid)
  {
  }

  /** Revision-2 Parse: the relay count read from the package is the number of relays parsed;
      the relay list spans 4 characters per relay from where it was; the digital-input count
      follows it; the digital-input list moved 2 characters on from its own previous index and
      runs to the end of the package; every field holds its slice, and both lists are the
      decoding of their slices. */
  lemma ParseRev2Layout(s: State, package: string)
    requires WellFormed(s) && Header.HasMid(package, Mid)
    requires ParseSpec(s, package).Success? && ParseSpec(s, package).value.header.revision == 2
    ensures var r := ParseSpec(s, package).value;
            var count := GetValue(s.fields2[Rev2RelayCountAt], package);
            count.Some? && ParseNat(count.value) == Some(|r.relays|) &&
            r.fields2[Rev2RelayListAt].index == s.fields2[Rev2RelayListAt].index &&
            r.fields2[Rev2RelayListAt].size == ItemWidth * |r.relays| &&
            r.fields2[Rev2InputCountAt].index == s.fields2[Rev2RelayListAt].index + ItemWidth * |r.relays| &&
            r.fields2[Rev2InputListAt].index == s.fields2[Rev2InputListAt].index + CountWidth &&
            r.fields2[Rev2InputListAt].index + r.fields2[Rev2InputListAt].size == |package| &&
            (forall k | 0 <= k < 5 :: GetValue(r.fields2[k], package) == Some(r.fields2[k].value)) &&
            Encode(r.relays) == r.fields2[Rev2RelayListAt].value &&
            Encode(r.digitalInputs) == r.fields2[Rev2InputListAt].value &&
            r.fields1 == s.fields1
  {
    ParseSteps(s, package);
    var s1 := ParseLayout(s, Header.Decode(package).value, package).value;
    var s2 := ParseFields(s1, package).value;
    assert ParseLists(s2).value.header == s2.header == s1.header;
    var count := ParseNat(GetValue(s.fields2[Rev2RelayCountAt], package).value).value;
    var t := Rev2ParseLayout(s.fields2, package, count);
    assert s1.fields2 == t;
    assert s2.fields2 == ReadAll(t, package).value;
    ReadLayout(s.fields2, package, count);
  }

  /** Reading the re-laid-out revision-2 list: the relay list's text is 4 characters per counted
      relay and the digital-input list's runs to the end of the package. */
  lemma ReadLayout(t: seq<DataField>, package: string, count: nat)
    requires |t| == 5 && ReadAll(Rev2ParseLayout(t, package, count), package).Success?
    ensures var read := ReadAll(Rev2ParseLayout(t, package, count), package).value;
            |read[Rev2RelayListAt].value| == ItemWidth * count == read[Rev2RelayListAt].size &&
            read[Rev2RelayListAt].index == t[Rev2RelayListAt].index &&
            read[Rev2InputCountAt].index == t[Rev2RelayListAt].index + ItemWidth * count &&
            read[Rev2InputListAt].index == t[Rev2InputListAt].index + CountWidth &&
            read[Rev2InputListAt].index + read[Rev2InputListAt].size == |package| &&
            forall k | 0 <= k < 5 :: GetValue(read[k], package) == Some(read[k].value)
  {
    var l := Rev2ParseLayout(t, package, count);
    var read := ReadAll(l, package).value;
    forall k | 0 <= k < 5 ensures GetValue(read[k], package) == Some(read[k].value) {
      assert read[k] == l[k].(value := GetValue(l[k], package).value);
    }
  }

  /** Each revision-2 Parse moves the digital-input list 2 characters further on, whatever the
      packages: two in a row move it by 4. */
  lemma ParseInputIndexDrift(s: State, first: string, second: string)
    requires WellFormed(s) && Header.HasMid(first, Mid) && Header.HasMid(second, Mid)
    requires ParseSpec(s, first).Success? && ParseSpec(s, first).value.header.revision == 2
    requires ParseSpec(ParseSpec(s, first).value, second).Success?
    requires ParseSpec(ParseSpec(s, first).value, second).value.header.revision == 2
    ensures ParseSpec(ParseSpec(s, first).value, second).value.fields2[Rev2InputListAt].index ==
              s.fields2[Rev2InputListAt].index + 2 * CountWidth
  {
    ParseRev2Layout(s, first);
    ParseRev2Layout(ParseSpec(s, first).value, second);
  }

  /** Revision-1 Parse reads only the revision-1 fields, yet decodes the relay and digital-input
      lists from the revision-2 list fields, which it leaves as they were. */
  lemma ParseRev1UsesRev2Lists(s: State, package: string)
    requires WellFormed(s) && Header.HasMid(package, Mid)
    requires ParseSpec(s, package).Success? && ParseSpec(s, package).value.header.revision == 1
    ensures var r := ParseSpec(s, package).value;
            r.fields2 == s.fields2 &&
            (forall k | 0 <= k < 3 :: GetValue(s.fields1[k], package) == Some(r.fields1[k].value) &&
                                      r.fields1[k] == s.fields1[k].(value := r.fields1[k].value)) &&
            Encode(r.relays) == s.fields2[Rev2RelayListAt].value &&
            Encode(r.digitalInputs) == s.fields2[Rev2InputListAt].value
  {
    ParseSteps(s, package);
    var s1 := ParseLayout(s, Header.Decode(package).value, package).value;
    assert ParseFields(s1, package).value.fields1 == ReadAll(s.fields1, package).value;
  }

  // Pack followed by Parse

  /** A new revision-2 object registers its digital-input list at index 0, so Parse moves the list
      to column 2, inside the header, and reads the whole rest of the package as digital inputs. */
  lemma FreshTemplateReadsFromColumn2(package: string)
    requires Header.HasMid(package, Mid)
    requires ParseSpec(Initial(2), package).Success? && ParseSpec(Initial(2), package).value.header.revision == 2
    ensures var r := ParseSpec(Initial(2), package).value;
            |package| >= 2 && Encode(r.digitalInputs) == package[2..] &&
            ItemWidth * |r.digitalInputs| == |package| - 2
  {
    FreshRev2Table(Initial(2).fields2);
    ParseRev2Layout(Initial(2), package);
  }

  /** Pack followed by Parse is no round trip: whatever a revision-2 object holds, a new object
      that parses its packed text finds more digital inputs than were packed, since the text from
      column 2 on holds the packed digital-input list and at least two ordinals besides. */
  lemma PackThenParseGainsInputs(s: State)
    requires WellFormed(s) && s.header.revision == 2
    requires Header.HasMid(PackOutput(s).value, Mid)
    requires ParseSpec(Initial(2), PackOutput(s).value).Success?
    requires ParseSpec(Initial(2), PackOutput(s).value).value.header.revision == 2
    ensures |ParseSpec(Initial(2), PackOutput(s).value).value.digitalInputs| > |s.digitalInputs|
  {
    var fields := PackedFields(s);
    PackOutputFrames(s);
    FreshTemplateReadsFromColumn2(PackOutput(s).value);
    FieldPlacement(fields, Rev2InputListAt);
    assert |fields[Rev2InputListAt].value| == ItemWidth * |s.digitalInputs|;
    assert WireWidth(fields[..Rev2InputListAt]) >= OrdinalSize;
  }

  /** What Pack writes for a new revision-2 message with no device id set, no relays and no
      digital inputs: the header, then ordinals 01 to 05 with the two counts "00" between them. */
  const EmptyRev2Package: string := "00340215002         01020003040005"

  /** The empty revision-2 message packs to the 34 characters of `EmptyRev2Package`; a new object
      parsing them succeeds, finds no relays and eight digital inputs, the characters from column
      2 on. */
  lemma EmptyRev2ParseGainsInputs()
    ensures Initial(2).relays == [] && Initial(2).digitalInputs == []
    ensures PackOutput(Initial(2)) == Success(EmptyRev2Package)
    ensures Header.HasMid(EmptyRev2Package, Mid)
    ensures ParseSpec(Initial(2), EmptyRev2Package).Success?
    ensures ParseSpec(Initial(2), EmptyRev2Package).value.relays == []
    ensures |ParseSpec(Initial(2), EmptyRev2Package).value.digitalInputs| == 8
  {
    EmptyRev2Packs();
    EmptyRev2Parses();
    FreshTemplateReadsFromColumn2(EmptyRev2Package);
  }

  lemma EmptyRev2Packs()
    ensures PackOutput(Initial(2)) == Success(EmptyRev2Package)
  {
    var s := Initial(2);
    var fields := PackedFields(s);
    EmptyRev2Body(fields);
    var body := Body(fields);
    var h := PackState(s).header;
    assert h == Header.Header(0, Mid, 2, "         ");
    PackOutputFrames(s);
    assert Frame(h, body) == Header.Encode(Header.Header(34, Mid, 2, "         ")) + "01020003040005";
    EmptyRev2Header();
  }

  /** The body Pack writes for the empty revision-2 message: ordinals 01 to 05, with "00" after
      02 and 04. */
  lemma EmptyRev2Body(fields: seq<DataField>)
    requires fields == PackedFields(Initial(2))
    ensures Body(fields) == "01020003040005" && |Body(fields)| == 14
  {
    EmptyRev2Values();
    BodyOfFive(fields);
    OrdinalTexts();
  }

  /** The values of the fields Pack writes for the empty revision-2 message. */
  lemma EmptyRev2Values()
    ensures var f := PackedFields(Initial(2));
            |f| == 5 && f[0].value == "" && f[1].value == "00" && f[2].value == "" &&
            f[3].value == "00" && f[4].value == ""
  {
    FreshRev2Table(Initial(2).fields2);
    assert NatToDigits(0) == "0";
    assert seq(1, _ => '0') == "0";
  }

  lemma {:induction false} BodyOfFive(fields: seq<DataField>)
    requires |fields| == 5
    ensures Body(fields) == Ordinal(1) + fields[0].value + Ordinal(2) + fields[1].value + Ordinal(3) +
                            fields[2].value + Ordinal(4) + fields[3].value + Ordinal(5) + fields[4].value
  {
    assert fields[..0] == [] && fields[..5] == fields;
    BodyStep(fields, 0);
    BodyStep(fields, 1);
    BodyStep(fields, 2);
    BodyStep(fields, 3);
    BodyStep(fields, 4);
    ChainOfFive(Body(fields[..0]), Body(fields[..1]), Body(fields[..2]), Body(fields[..3]), Body(fields[..4]), Body(fields),
                [Ordinal(1), Ordinal(2), Ordinal(3), Ordinal(4), Ordinal(5)],
                [fields[0].value, fields[1].value, fields[2].value, fields[3].value, fields[4].value]);
  }

  // Solver helper: the five body steps, over plain texts.
  lemma ChainOfFive(b0: string, b1: string, b2: string, b3: string, b4: string, b5: string, o: seq<string>, v: seq<string>)
    requires |o| == 5 && |v| == 5 && b0 == []
    requires b1 == b0 + o[0] + v[0] && b2 == b1 + o[1] + v[1] && b3 == b2 + o[2] + v[2]
    requires b4 == b3 + o[3] + v[3] && b5 == b4 + o[4] + v[4]
    ensures b5 == o[0] + v[0] + o[1] + v[1] + o[2] + v[2] + o[3] + v[3] + o[4] + v[4]
  {
    assert b0 + o[0] == o[0];
  }

  /** The header of the empty revision-2 message, 34 characters long in all. */
  lemma EmptyRev2Header()
    ensures Header.Encode(Header.Header(34, Mid, 2, "         ")) + "01020003040005" == EmptyRev2Package
  {
    EmptyRev2HeaderParts();
    Format0034();
    Format0215();
    Header.Format002();
    HeaderLiteral(Header.Encode(Header.Header(34, Mid, 2, "         ")),
                  FormatNat(34, 4), FormatNat(215, 4), FormatNat(2, 3));
  }

  // Solver helpers for EmptyRev2Header: the header as its pieces, each piece's literal text,
  // and the pieces joined.
  lemma EmptyRev2HeaderParts()
    ensures Header.Encode(Header.Header(34, Mid, 2, "         ")) ==
            FormatNat(34, 4) + FormatNat(215, 4) + FormatNat(2, 3) + "         "
  {
  }

  lemma Format0034() ensures FormatNat(34, 4) == "0034"
  {
    assert NatToDigits(34) == "34";
    assert seq(2, _ => '0') == "00";
  }

  lemma Format0215() ensures FormatNat(215, 4) == "0215"
  {
    assert NatToDigits(215) == "215";
    assert seq(1, _ => '0') == "0";
  }

  lemma HeaderLiteral(whole: string, length: string, mid: string, revision: string)
    requires whole == length + mid + revision + "         "
    requires length == "0034" && mid == "0215" && revision == "002"
    ensures whole + "01020003040005" == EmptyRev2Package
  {
  }

  /** A new revision-2 object parses `EmptyRev2Package`: the relay count at 24 reads "00", and every
      re-laid-out slice, the digital-input list from column 2 included, is in the package. */
  lemma EmptyRev2Parses()
    ensures Header.HasMid(EmptyRev2Package, Mid)
    ensures ParseSpec(Initial(2), EmptyRev2Package).Success?
    ensures ParseSpec(Initial(2), EmptyRev2Package).value.header.revision == 2
    ensures ParseSpec(Initial(2), EmptyRev2Package).value.relays == []
  {
    var p := EmptyRev2Package;
    var h := Header.Header(34, Mid, 2, "         ");
    EmptyRev2Decodes();
    var s := Initial(2);
    var l := EmptyRev2Layout();
    var s1 := s.(header := h, fields2 := l);
    assert ParseLayout(s, h, p) == Success(s1);
    var read := EmptyRev2Read(l);
    var s2 := s1.(fields2 := read);
    assert ParseFields(s1, p) == Success(s2);
    assert ParseSpec(s, p) == ParseLists(s2);
  }

  lemma EmptyRev2Decodes()
    ensures Header.Decode(EmptyRev2Package) == Some(Header.Header(34, Mid, 2, "         "))
    ensures Header.HasMid(EmptyRev2Package, Mid)
  {
    EmptyRev2Header();
    Header.DecodeEncode(Header.Header(34, Mid, 2, "         "), "01020003040005");
  }

  /** The re-layout of the new object's revision-2 list: the relay count at 24 reads "00". */
  lemma EmptyRev2Layout() returns (l: seq<DataField>)
    ensures |l| == 5
    ensures Rev2Resize(Initial(2).fields2, EmptyRev2Package) == Success(l)
    ensures l[0] == DataField(IoDeviceId, 20, 2, LeftPadded('0'), "")
    ensures l[1] == DataField(NumberOfRelays, 24, 2, LeftPadded('0'), "")
    ensures l[2] == DataField(RelayList, 28, 0, Unpadded, "")
    ensures l[3] == DataField(NumberOfDigitalInputs, 28, 2, LeftPadded('0'), "")
    ensures l[4] == DataField(DigitalInputList, 2, 32, Unpadded, "")
  {
    var t := Initial(2).fields2;
    FreshRev2Table(t);
    assert EmptyRev2Package[24..26] == "00";
    ZeroCount();
    l := Rev2ParseLayout(t, EmptyRev2Package, 0);
  }

  /** Reading that layout: every slice is in the 34 characters; the relay list is empty and the
      digital-input list is the 32 characters from column 2. */
  lemma EmptyRev2Read(l: seq<DataField>) returns (read: seq<DataField>)
    requires |l| == 5
    requires l[0] == DataField(IoDeviceId, 20, 2, LeftPadded('0'), "")
    requires l[1] == DataField(NumberOfRelays, 24, 2, LeftPadded('0'), "")
    requires l[2] == DataField(RelayList, 28, 0, Unpadded, "")
    requires l[3] == DataField(NumberOfDigitalInputs, 28, 2, LeftPadded('0'), "")
    requires l[4] == DataField(DigitalInputList, 2, 32, Unpadded, "")
    ensures ReadAll(l, EmptyRev2Package) == Success(read) && |read| == 5
    ensures read[Rev2RelayListAt].value == "" && |read[Rev2InputListAt].value| == 32
  {
    assert |EmptyRev2Package| == 34;
    FiveSlices(l, EmptyRev2Package);
    read := ReadAll(l, EmptyRev2Package).value;
  }

  /** Revision-2 Parse's re-layout with the digital-input list placed 2 characters after the
      digital-input count, as Pack places it, rather than 2 characters after its own previous
      index. */
  function Rev2ParseLayoutAnchored(t: seq<DataField>, package: string, count: nat): (r: seq<DataField>)
    requires |t| == 5
    ensures |r| == 5 && SameIds(r, t)
    ensures r[Rev2InputListAt].index == r[Rev2InputCountAt].index + CountWidth
    ensures r[Rev2InputListAt].index + r[Rev2InputListAt].size == |package|
  {
    var relayList := t[Rev2RelayListAt].(size := count * ItemWidth);
    var inputCount := t[Rev2InputCountAt].(index := relayList.index + relayList.size);
    var at := inputCount.index + CountWidth;
    var inputList := t[Rev2InputListAt].(index := at, size := |package| - at);
    var r := [t[DeviceAt], t[Rev2RelayCountAt], relayList, inputCount, inputList];
    FiveIds(r, t);
    r
  }

  /** Given the relay count Pack wrote, the anchored re-layout puts every field at the index Pack
      gave it, and the relay list at the size Pack gave it, whatever the package. */
  lemma AnchoredLayoutMatchesPack(t: seq<DataField>, relays: seq<Relay>, inputs: seq<DigitalInput>, package: string)
    requires |t| == 5
    ensures var parsed, packed := Rev2ParseLayoutAnchored(t, package, |relays|), Rev2PackLayout(t, relays, inputs);
            (forall k | 0 <= k < 5 :: parsed[k].index == packed[k].index) &&
            parsed[Rev2RelayListAt].size == packed[Rev2RelayListAt].size
  {
  }

  /** The anchored re-layout does not drift: re-laying out a list that an earlier parse already
      re-laid out gives the same list as re-laying out the original, whatever the earlier package. */
  lemma AnchoredLayoutDoesNotDrift(t: seq<DataField>, first: string, second: string, count: nat)
    requires |t| == 5
    ensures Rev2ParseLayoutAnchored(Rev2ParseLayoutAnchored(t, first, count), second, count) ==
            Rev2ParseLayoutAnchored(t, second, count)
  {
  }

  // Field lookup by enumeration value

  /** Revision-2 Pack as written, where `RevisionsByFields[2][(int)DataFields.X]` takes the list
      entry at position `X.Ordinal()` rather than the entry whose id is `X`. In revision 2 the
      positions of four fields differ from their enumeration values. */
  function Rev2PackLayoutPositional(t: seq<DataField>, relays: seq<Relay>, inputs: seq<DigitalInput>): (r: seq<DataField>)
    requires |t| == 5
    ensures |r| == 5 && SameIds(r, t)
  {
    var relayCount := SetInt(t[NumberOfRelays.Ordinal()], |relays|);
    var relayList := t[RelayList.Ordinal()].(size := |relays| * ItemWidth, value := Encode(relays));
    var inputCount := SetInt(t[NumberOfDigitalInputs.Ordinal()], |inputs|).(index := relayList.index + relayList.size);
    var inputList := t[DigitalInputList.Ordinal()].(
      index := inputCount.index + CountWidth, size := |inputs| * ItemWidth, value := Encode(inputs));
    // each entry goes back to the position its enumeration value names
    var r := [t[IoDeviceId.Ordinal()], relayList, inputList, relayCount, inputCount];
    FiveIds(r, t);
    r
  }

  /** As written, empty lists on the registered revision-2 table leave the relay-count entry
      holding the (empty) relay-list text and put the digital-input count into the digital-input
      list entry, so Pack writes nothing after ordinal 02 where "00" belongs and "0" after
      ordinal 05 where the empty list belongs; lookup by id writes "00" and "" there. */
  lemma PositionalLookupMisplacesCounts()
    ensures var t := RegisterDatafields()[2];
            var asWritten, byId := Rev2PackLayoutPositional(t, [], []), Rev2PackLayout(t, [], []);
            asWritten[Rev2RelayCountAt].id == NumberOfRelays && asWritten[Rev2RelayCountAt].value == "" &&
            ParseNat(asWritten[Rev2RelayCountAt].value).None? &&
            asWritten[Rev2InputListAt].id == DigitalInputList && asWritten[Rev2InputListAt].value == "0" &&
            byId[Rev2RelayCountAt].value == "00" && ParseNat(byId[Rev2RelayCountAt].value) == Some(0) &&
            byId[Rev2InputListAt].value == ""
  {
    var t := RegisterDatafields()[2];
    assert Pow10(2) == 100;
    Rev2PackCountsAndSizes(t, [], []);
    FormatParse("00");
    assert DigitsValue("00") == 0 by { assert "00"[..1] == "0" && "0"[..0] == ""; }
    assert NatToDigits(0) == "0";
  }

  /** Revision-2 Parse's re-layout as written, where each `RevisionsByFields[2][(int)DataFields.X]`
      takes the entry at position `X.Ordinal()`: the entry at position 1 (the relay count) is sized
      as the relay list, the one at position 4 (the digital-input list) is placed behind it as the
      digital-input count, and the one at position 2 (the relay list) moves 2 characters on and
      stretches to the end of the package. */
  function Rev2ParseLayoutPositional(t: seq<DataField>, package: string, count: nat): (r: seq<DataField>)
    requires |t| == 5
    ensures |r| == 5 && SameIds(r, t)
  {
    var relayList := t[RelayList.Ordinal()].(size := count * ItemWidth);
    var inputCount := t[NumberOfDigitalInputs.Ordinal()].(index := relayList.index + relayList.size);
    var moved := t[DigitalInputList.Ordinal()].(index := t[DigitalInputList.Ordinal()].index + CountWidth);
    var inputList := moved.(size := |package| - moved.index);
    // each entry goes back to the position its enumeration value names
    var r := [t[IoDeviceId.Ordinal()], relayList, inputList, t[NumberOfRelays.Ordinal()], inputCount];
    FiveIds(r, t);
    r
  }

  /** As written, the relay count is read through the entry at position 3, the digital-input count. */
  function Rev2ResizePositional(t: seq<DataField>, package: string): (r: Result<seq<DataField>>)
    requires |t| == 5
    ensures r.Success? <==> GetValue(t[NumberOfRelays.Ordinal()], package).Some? &&
                            ParseNat(GetValue(t[NumberOfRelays.Ordinal()], package).value).Some?
    ensures r.Success? ==> SameIds(r.value, t)
    ensures r.Failure? ==> r.error == MalformedField
  {
    match GetValue(t[NumberOfRelays.Ordinal()], package)
    case None => Failure(MalformedField)
    case Some(text) =>
      match ParseNat(text)
      case None => Failure(MalformedField)
      case Some(count) => Success(Rev2ParseLayoutPositional(t, package, count))
  }

  /** Parse's first step as written. */
  function ParseLayoutPositional(s: State, h: Header.Header, package: string): (r: Result<State>)
    requires WellFormed(s) && h.mid == Mid
    ensures r.Success? ==> WellFormed(r.value) && r.value == s.(header := h, fields2 := r.value.fields2)
    ensures h.revision <= 1 ==> r == Success(s.(header := h))
    ensures r.Failure? ==> r.error == MalformedField
  {
    if h.revision > 1 then
      match Rev2ResizePositional(s.fields2, package)
      case Failure(e) => Failure(e)
      case Success(t) => Success(s.(header := h, fields2 := t))
    else Success(s.(header := h))
  }

  /** Parse's last step as written: the relays come from the entry at position 1 (the relay count)
      and the digital inputs from the entry at position 2 (the relay list). */
  function ParseListsPositional(s: State): (r: Result<State>)
    requires WellFormed(s)
    ensures r.Success? <==> |s.fields2[RelayList.Ordinal()].value| % ItemWidth == 0 &&
                            |s.fields2[DigitalInputList.Ordinal()].value| % ItemWidth == 0
    ensures r.Success? ==> r.value == s.(relays := r.value.relays, digitalInputs := r.value.digitalInputs)
    ensures r.Success? ==> Encode(r.value.relays) == s.fields2[RelayList.Ordinal()].value &&
                           Encode(r.value.digitalInputs) == s.fields2[DigitalInputList.Ordinal()].value
    ensures r.Failure? ==> r.error == MalformedField
  {
    var relays :- ListOf(s.fields2[RelayList.Ordinal()].value);
    var inputs :- ListOf(s.fields2[DigitalInputList.Ordinal()].value);
    Success(s.(relays := relays, digitalInputs := inputs))
  }

  /** Parse as written, with the positional lookups; the reading loop itself walks the list and is
      the same either way. */
  function ParseSpecPositional(s: State, package: string): (r: Result<State>)
    requires WellFormed(s) && Header.HasMid(package, Mid)
    ensures r.Success? ==> WellFormed(r.value)
  {
    match Header.Decode(package)
    case None => Failure(MalformedHeader)
    case Some(h) =>
      var s1 :- ParseLayoutPositional(s, h, package);
      var s2 :- ParseFields(s1, package);
      ParseListsPositional(s2)
  }

  /** As written, a new revision-2 object reads its relay count from the first two characters of
      the package, which are "00" for any length below 100. It then parses no relays at all, and
      takes everything from column 30 on as the digital-input list, whatever the package's own
      counts and lists say; it fails unless that rest is a whole number of 4-character items. */
  lemma PositionalParseReadsLengthDigits(package: string)
    requires Header.HasMid(package, Mid)
    requires Header.Decode(package).Some? && Header.Decode(package).value.revision == 2
    requires Header.Decode(package).value.length < 100
    ensures GetValue(Initial(2).fields2[NumberOfRelays.Ordinal()], package) == Some("00")
    ensures ParseSpecPositional(Initial(2), package).Success? <==> |package| >= 30 && (|package| - 30) % ItemWidth == 0
    ensures ParseSpecPositional(Initial(2), package).Success? ==>
              ParseSpecPositional(Initial(2), package).value.relays == [] &&
              Encode(ParseSpecPositional(Initial(2), package).value.digitalInputs) == package[30..]
  {
    var s := Initial(2);
    var h := Header.Decode(package).value;
    var t := s.fields2;
    FreshRev2Table(t);
    LengthBelow100(package[..4]);
    assert package[..4][..2] == package[..2];
    ZeroCount();
    MidOfDecoded(package);
    var l := Rev2ParseLayoutPositional(t, package, 0);
    assert Rev2ResizePositional(t, package) == Success(l);
    var s1 := s.(header := h, fields2 := l);
    assert ParseLayoutPositional(s, h, package) == Success(s1);
    PositionalFreshRead(t, package);
    if |package| >= 30 {
      var s2 := s1.(fields2 := ReadAll(l, package).value);
      assert ParseFields(s1, package) == Success(s2);
      assert ParseSpecPositional(s, package) == ParseListsPositional(s2);
    }
  }

  /** As written, the self-relative move of Parse acts on the entry at position 2, which a new
      revision-2 object registers as the relay list at index 28: one re-layout moves it to 30, a
      second to 32, whatever the packages and counts. */
  lemma PositionalRelayListDrift(first: string, firstCount: nat, second: string, secondCount: nat)
    ensures var t := RegisterDatafields()[2];
            var l1 := Rev2ParseLayoutPositional(t, first, firstCount);
            var l2 := Rev2ParseLayoutPositional(l1, second, secondCount);
            l1[DigitalInputList.Ordinal()].id == RelayList && l1[DigitalInputList.Ordinal()].index == 30 &&
            l2[DigitalInputList.Ordinal()].id == RelayList && l2[DigitalInputList.Ordinal()].index == 32
  {
    FreshRev2Table(RegisterDatafields()[2]);
  }

  /** The registered revision-2 entries the as-written Parse touches. */
  lemma FreshRev2Table(t: seq<DataField>)
    requires t == RegisterDatafields()[2]
    ensures |t| == 5
    ensures t[0] == DataField(IoDeviceId, 20, 2, LeftPadded('0'), "")
    ensures t[1] == DataField(NumberOfRelays, 24, 2, LeftPadded('0'), "")
    ensures t[2] == DataField(RelayList, 28, 0, Unpadded, "")
    ensures t[3] == DataField(NumberOfDigitalInputs, 0, 2, LeftPadded('0'), "")
    ensures t[4] == DataField(DigitalInputList, 0, 0, Unpadded, "")
  {
  }

  /** Reading the as-written layout of the registered table with count 0: every slice is there
      exactly when the package reaches column 30; the relay text is then empty and the
      digital-input text is the rest of the package from column 30. */
  lemma PositionalFreshRead(t: seq<DataField>, package: string)
    requires |t| == 5 && |package| >= Header.HeaderWidth
    requires t[0] == DataField(IoDeviceId, 20, 2, LeftPadded('0'), "")
    requires t[1] == DataField(NumberOfRelays, 24, 2, LeftPadded('0'), "")
    requires t[2] == DataField(RelayList, 28, 0, Unpadded, "")
    requires t[3] == DataField(NumberOfDigitalInputs, 0, 2, LeftPadded('0'), "")
    requires t[4] == DataField(DigitalInputList, 0, 0, Unpadded, "")
    ensures var l := Rev2ParseLayoutPositional(t, package, 0);
            (ReadAll(l, package).Success? <==> |package| >= 30) &&
            (ReadAll(l, package).Success? ==>
               ReadAll(l, package).value[RelayList.Ordinal()].value == "" &&
               ReadAll(l, package).value[DigitalInputList.Ordinal()].value == package[30..])
  {
    var l := Rev2ParseLayoutPositional(t, package, 0);
    assert l[1] == t[1].(size := 0) && l[2] == t[2].(index := 30, size := |package| - 30);
    assert |package| < 30 ==> GetValue(l[2], package).None?;
    if |package| >= 30 {
      FiveSlices(l, package);
    }
  }

  /** Four digits denoting less than 100 start with "00". */
  lemma LengthBelow100(s: string)
    requires ParseNat(s).Some? && |s| == 4 && ParseNat(s).value < 100
    ensures s[..2] == "00"
  {
    assert s[..3][..2] == s[..2] && s[..2][..1] == s[..1] && s[..1][..0] == [];
    assert DigitsValue(s) == 10 * DigitsValue(s[..3]) + (s[3] as int - '0' as int);
    assert DigitsValue(s[..3]) == 10 * DigitsValue(s[..2]) + (s[2] as int - '0' as int);
    assert DigitsValue(s[..2]) == 10 * DigitsValue(s[..1]) + (s[1] as int - '0' as int);
    assert DigitsValue(s[..1]) == s[0] as int - '0' as int;
    assert s[..2] == [s[0], s[1]];
  }

  lemma ZeroCount()
    ensures ParseNat("00") == Some(0)
  {
    assert "00"[..1] == "0" && "0"[..0] == "";
  }
}

=== FILE: io_device_status.dfy ===
/**
 * The MID 0215 message object. Its two field lists are arrays whose entries
 * Pack and Parse update in place; the header and the two item lists are fields
 * the methods reassign. Every method that succeeds is proved to leave the
 * object in the state the functions of IoDeviceLayout describe.
 */
module IoDeviceStatus {
  import opened Outcomes
  import opened Text
  import opened ItemLists
  import Header
  import opened IoDeviceLayout

  /** What Parse hands back: this object, parsed; the package, for the next template of the
      chain; or the reason the package could not be read. */
  datatype ParseResult = Parsed | Forwarded(package: string) | Failed(error: Error)

  class Mid0215 {
    var header: Header.Header
    var relays: seq<Relay>
    var digitalInputs: seq<DigitalInput>
    /** `RevisionsByFields[1]` and `RevisionsByFields[2]`. */
    const fields1: array<DataField>
    const fields2: array<DataField>

    ghost predicate Valid()
      reads this, fields1, fields2
    {
      fields1 != fields2 && WellFormed(Snapshot())
    }

    /** The object's whole state as a value. */
    function Snapshot(): State
      reads this, fields1, fields2
    {
      State(header, relays, digitalInputs, fields1[..], fields2[..])
    }

    /** `MID_0215(revision = LAST_REVISION)`: both lists empty, the registered field tables. */
    constructor(revision: int := LastRevision)
      ensures Valid() && fresh(fields1) && fresh(fields2)
      ensures Snapshot() == Initial(revision)
    {
      var table := RegisterDatafields();
      header := Header.Header(0, Mid, revision, "         ");
      relays := [];
      digitalInputs := [];
      fields1 := new DataField[3](k requires 0 <= k < 3 => table[1][k]);
      fields2 := new DataField[5](k requires 0 <= k < 5 => table[2][k]);
      new;
      assert fields1[..] == table[1];
      assert fields2[..] == table[2];
    }

    /** The `IODeviceId` setter: writes the id into the current revision's list; there is no
        list for a revision other than 1 or 2. */
    method SetIoDeviceId(id: nat) returns (r: Result<()>)
      requires Valid()
      modifies fields1, fields2
      ensures Valid()
      ensures match WithIoDeviceId(old(Snapshot()), id)
              case Success(s) => r == Success(()) && Snapshot() == s
              case Failure(e) => r == Failure(e) && Snapshot() == old(Snapshot())
    {
      if header.revision == 1 {
        fields1[DeviceAt] := SetInt(fields1[DeviceAt], id);
        r := Success(());
      } else if header.revision == 2 {
        fields2[DeviceAt] := SetInt(fields2[DeviceAt], id);
        r := Success(());
      } else {
        r := Failure(UnsupportedRevision);
      }
    }

    /** The layout half of Pack: revision above 1 sizes and places revision 2's fields from
        the list lengths; otherwise the revision becomes 1 and list 1 takes the list texts. */
    method LayOut()
      requires Valid()
      modifies this, fields1, fields2
      ensures Valid()
      ensures Snapshot() == PackState(old(Snapshot()))
    {
      if header.revision > 1 {
        LayOutRevision2();
      } else {
        header := header.(revision := 1);
        LayOutRevision1();
      }
    }

    method LayOutRevision2()
      requires Valid()
      modifies fields2
      ensures Valid()
      ensures fields2[..] == Rev2PackLayout(old(fields2[..]), relays, digitalInputs)
    {
      ghost var t := fields2[..];
      fields2[Rev2RelayCountAt] := SetInt(fields2[Rev2RelayCountAt], |relays|);
      fields2[Rev2InputCountAt] := SetInt(fields2[Rev2InputCountAt], |digitalInputs|);
      var relayList := fields2[Rev2RelayListAt].(size := |relays| * ItemWidth, value := Encode(relays));
      fields2[Rev2RelayListAt] := relayList;
      fields2[Rev2InputCountAt] := fields2[Rev2InputCountAt].(index := relayList.index + relayList.size);
      var inputCount := fields2[Rev2InputCountAt];
      fields2[Rev2InputListAt] := fields2[Rev2InputListAt].(
        index := inputCount.index + CountWidth,
        size := |digitalInputs| * ItemWidth,
        value := Encode(digitalInputs));
      ghost var r := Rev2PackLayout(t, relays, digitalInputs);
      assert fields2[DeviceAt] == r[DeviceAt] && fields2[Rev2RelayCountAt] == r[Rev2RelayCountAt];
      assert fields2[Rev2RelayListAt] == r[Rev2RelayListAt] && fields2[Rev2InputCountAt] == r[Rev2InputCountAt];
      assert fields2[Rev2InputListAt] == r[Rev2InputListAt];
      SameEntries(fields2[..], r);
    }

    method LayOutRevision1()
      requires Valid()
      modifies fields1
      ensures Valid()
      ensures fields1[..] == Rev1PackLayout(old(fields1[..]), relays, digitalInputs)
    {
      ghost var t := fields1[..];
      fields1[Rev1RelayListAt] := fields1[Rev1RelayListAt].(value := Encode(relays));
      fields1[Rev1InputListAt] := fields1[Rev1InputListAt].(value := Encode(digitalInputs));
      assert fields1[..] == Rev1PackLayout(t, relays, digitalInputs);
    }

    /** The writing loop of Pack: each field's value behind its ordinal, counting from 01. */
    static method WriteFields(table: array<DataField>) returns (body: string)
      ensures body == Body(table[..])
    {
      body := "";
      var prefixIndex := 1;
      for i := 0 to table.Length
        invariant prefixIndex == i + 1
        invariant body == Body(table[..i])
      {
        assert table[..i + 1][..i] == table[..i];
        body := body + Ordinal(prefixIndex) + table[i].value;
        prefixIndex := prefixIndex + 1;
      }
      assert table[..table.Length] == table[..];
    }

    /** `Pack()`: lays out the current revision's list, falling back to revision 1 when the
        revision is at most 1, then writes the header and each field behind its ordinal. */
    method Pack() returns (r: Result<string>)
      requires Valid()
      modifies this, fields1, fields2
      ensures Valid()
      ensures Snapshot() == PackState(old(Snapshot()))
      ensures r == PackOutput(old(Snapshot()))
    {
      ghost var s0 := Snapshot();
      LayOut();
      var table: array<DataField>;
      if header.revision == 1 {
        table := fields1;
      } else if header.revision == 2 {
        table := fields2;
      } else {
        return Failure(UnsupportedRevision);
      }
      var body := WriteFields(table);
      PackOutputFrames(s0);
      assert table[..] == PackedFields(s0);
      r := Success(Frame(header, body));
    }

    /** Revision 2's re-layout in Parse, from the relay count found in the package. */
    method Resize(package: string) returns (ok: bool)
      requires Valid()
      modifies fields2
      ensures Valid()
      ensures ok <==> Rev2Resize(old(fields2[..]), package).Success?
      ensures fields2[..] == if ok then Rev2Resize(old(fields2[..]), package).value else old(fields2[..])
    {
      var countText := GetValue(fields2[Rev2RelayCountAt], package);
      if countText.None? {
        return false;
      }
      var count := ParseNat(countText.value);
      if count.None? {
        return false;
      }
      ghost var t := fields2[..];
      var relayList := fields2[Rev2RelayListAt].(size := count.value * ItemWidth);
      fields2[Rev2RelayListAt] := relayList;
      fields2[Rev2InputCountAt] := fields2[Rev2InputCountAt].(index := relayList.index + relayList.size);
      var inputList := fields2[Rev2InputListAt];
      inputList := inputList.(index := inputList.index + CountWidth);
      inputList := inputList.(size := |package| - inputList.index);
      fields2[Rev2InputListAt] := inputList;
      assert fields2[..] == Rev2ParseLayout(t, package, count.value);
      return true;
    }

    /** The reading loop of Parse: every field takes its slice of the package, stopping at the
        first slice that is not there. */
    static method ReadFields(table: array<DataField>, package: string) returns (ok: bool)
      modifies table
      ensures ok <==> ReadAll(old(table[..]), package).Success?
      ensures ok ==> table[..] == ReadAll(old(table[..]), package).value
      ensures SameIds(old(table[..]), table[..])
    {
      ghost var before := table[..];
      for i := 0 to table.Length
        invariant forall k | 0 <= k < i :: GetValue(before[k], package).Some? &&
                                           table[k] == before[k].(value := GetValue(before[k], package).value)
        invariant forall k | i <= k < table.Length :: table[k] == before[k]
        invariant SameIds(before, table[..])
      {
        var slice := GetValue(table[i], package);
        if slice.None? {
          return false;
        }
        table[i] := table[i].(value := slice.value);
      }
      return true;
    }

    /** Parse once the header `h` is read: the header is taken over and, for a revision above 1,
        revision 2's list re-laid out from the package's relay count. */
    method TakeHeader(h: Header.Header, package: string) returns (ok: bool)
      requires Valid() && h.mid == Mid
      modifies this, fields2
      ensures Valid()
      ensures ok <==> ParseLayout(old(Snapshot()), h, package).Success?
      ensures ok ==> Snapshot() == ParseLayout(old(Snapshot()), h, package).value
    {
      header := h;
      if h.revision > 1 {
        ok := Resize(package);
      } else {
        ok := true;
      }
    }

    /** Parse's reading loop, on the list of the current revision. */
    method ReadCurrent(package: string) returns (e: Option<Error>)
      requires Valid()
      modifies fields1, fields2
      ensures Valid()
      ensures e.None? <==> ParseFields(old(Snapshot()), package).Success?
      ensures e.None? ==> Snapshot() == ParseFields(old(Snapshot()), package).value
      ensures e.Some? ==> e.value == ParseFields(old(Snapshot()), package).error
    {
      var ok: bool;
      if header.revision == 1 {
        ok := ReadFields(fields1, package);
      } else if header.revision == 2 {
        ok := ReadFields(fields2, package);
      } else {
        return Some(UnsupportedRevision);
      }
      e := if ok then None else Some(MalformedField);
    }

    /** Parse's last step: both item lists decoded from revision 2's list fields. */
    method DecodeLists() returns (e: Option<Error>)
      requires Valid()
      modifies this
      ensures Valid()
      ensures e.None? <==> ParseLists(old(Snapshot())).Success?
      ensures e.None? ==> Snapshot() == ParseLists(old(Snapshot())).value
      ensures e.Some? ==> e.value == ParseLists(old(Snapshot())).error && Snapshot() == old(Snapshot())
    {
      var relayItems := ListOf(fields2[Rev2RelayListAt].value);
      if relayItems.Failure? {
        return Some(relayItems.error);
      }
      var inputItems := ListOf(fields2[Rev2InputListAt].value);
      if inputItems.Failure? {
        return Some(inputItems.error);
      }
      relays := relayItems.value;
      digitalInputs := inputItems.value;
      return None;
    }

    /** `Parse(package)`: a package of another MID goes on to the next template; otherwise the
        header is read, revision 2's list re-laid out when the revision is above 1, the current
        revision's fields read from the package, and the two lists decoded. When reading fails
        the object stays valid but its state is left unspecified. */
    method Parse(package: string) returns (r: ParseResult)
      requires Valid()
      modifies this, fields1, fields2
      ensures Valid()
      ensures !Header.HasMid(package, Mid) ==> r == Forwarded(package) && Snapshot() == old(Snapshot())
      ensures Header.HasMid(package, Mid) ==>
                match ParseSpec(old(Snapshot()), package)
                case Success(s) => r == Parsed && Snapshot() == s
                case Failure(e) => r == Failed(e)
    {
      if !Header.HasMid(package, Mid) {
        return Forwarded(package);
      }
      var decoded := Header.Decode(package);
      if decoded.None? {
        return Failed(MalformedHeader);
      }
      MidOfDecoded(package);
      var ok := TakeHeader(decoded.value, package);
      if !ok {
        return Failed(MalformedField);
      }
      var e := ReadCurrent(package);
      if e.Some? {
        return Failed(e.value);
      }
      e := DecodeLists();
      if e.Some? {
        return Failed(e.value);
      }
      return Parsed;
    }
  }

  // Solver helper for the revision-2 re-layout proofs above.

  /** Two five-entry lists agreeing entry by entry are equal. */
  lemma SameEntries(a: seq<DataField>, b: seq<DataField>)
    requires |a| == |b| == 5
    requires a[0] == b[0] && a[1] == b[1] && a[2] == b[2] && a[3] == b[3] && a[4] == b[4]
    ensures a == b
  {
  }
}

=== FILE: item_lists.dfy ===
/**
 * The list converters for relays and digital inputs: a list is the
 * concatenation of fixed-width items, and its length is carried by a separate
 * count field, never by the list text itself. The item's inner format belongs
 * to converters outside this model, so an item is kept as its 4-character text.
 */
module ItemLists {
  import opened Outcomes

  /** Width of one relay or digital-input entry (the `* 4` of the layout code). */
  const ItemWidth: nat := 4

  type Item = s: string | |s| == ItemWidth witness "0000"

  type Relay = Item

  type DigitalInput = Item

  /** The list converter's encoding. */
  function Encode(items: seq<Item>): (r: string)
    ensures |r| == ItemWidth * |items|
  {
    if items == [] then "" else items[0] + Encode(items[1..])
  }

  /** The list converter's decoding: fails unless the text splits into whole items. */
  function Decode(s: string): (r: Option<seq<Item>>)
    ensures r.Some? ==> ItemWidth * |r.value| == |s|
    decreases |s|
  {
    if s == [] then Some([])
    else if |s| < ItemWidth then None
    else
      match Decode(s[ItemWidth..])
      case None => None
      case Some(rest) =>
        var item: Item := s[..ItemWidth];
        Some([item] + rest)
  }

  lemma {:induction false} DecodeEncode(items: seq<Item>)
    ensures Decode(Encode(items)) == Some(items)
  {
    if items != [] {
      var s := Encode(items);
      assert s[..ItemWidth] == items[0];
      assert s[ItemWidth..] == Encode(items[1..]);
      DecodeEncode(items[1..]);
      assert [items[0]] + items[1..] == items;
    }
  }

  lemma {:induction false} EncodeDecode(s: string)
    requires Decode(s).Some?
    ensures Encode(Decode(s).value) == s
    ensures |Decode(s).value| * ItemWidth == |s|
    decreases |s|
  {
    if s != [] {
      EncodeDecode(s[ItemWidth..]);
      assert s == s[..ItemWidth] + s[ItemWidth..];
    }
  }

  /** Decoding fails exactly when the text is not a whole number of items. */
  lemma {:induction false} DecodeFailsOnPartialItem(s: string)
    ensures Decode(s).None? <==> |s| % ItemWidth != 0
    decreases |s|
  {
    if |s| >= ItemWidth {
      DecodeFailsOnPartialItem(s[ItemWidth..]);
    }
  }
}

=== FILE: outcomes.dfy ===
/** Optional values, results and the error taxonomy shared by the message framework. */
module Outcomes {

  datatype Option<+T> = None | Some(value: T)

  /** The failures the framework reports instead of throwing. */
  datatype Error =
    | MalformedHeader          // header too short or not numeric where a number is expected
    | UnrecognisedMessageType  // the dispatch chain was exhausted
    | UnsupportedRevision      // no field table for the requested revision
    | MalformedField           // a field slice is out of range or does not decode

  datatype Result<+T> = Success(value: T) | Failure(error: Error) {
    predicate IsFailure() { Failure? }

    function PropagateFailure<U>(): Result<U>
      requires Failure?
    {
      Failure(error)
    }

    function Extract(): T
      requires Success?
    {
      value
    }
  }
}

=== FILE: text.dfy ===
/**
 * Fixed-width decimal text: the integer converter used for counts and ids, the
 * left padding applied to numeric fields, and the ASCII view of byte packages.
 */
module Text {
  import opened Outcomes

  predicate IsDigit(c: char) { '0' <= c <= '9' }

  predicate AllDigits(s: string) { forall i | 0 <= i < |s| :: IsDigit(s[i]) }

  function Pow10(n: nat): (p: nat)
    ensures p >= 1
  {
    if n == 0 then 1 else 10 * Pow10(n - 1)
  }

  function DigitChar(d: nat): (c: char)
    requires d < 10
    ensures IsDigit(c) && c as int - '0' as int == d
  {
    ('0' as int + d) as char
  }

  /** The number denoted by a string of decimal digits (leading zeros allowed). */
  function DigitsValue(s: string): nat
    requires AllDigits(s)
  {
    if s == [] then 0 else 10 * DigitsValue(s[..|s| - 1]) + (s[|s| - 1] as int - '0' as int)
  }

  /** Shortest decimal text of `n`, as `int.ToString()` writes a non-negative number. */
  function NatToDigits(n: nat): (r: string)
    ensures 1 <= |r|
    decreases n
  {
    if n < 10 then [DigitChar(n)] else NatToDigits(n / 10) + [DigitChar(n % 10)]
  }

  /** The decimal text of `n` is digits denoting `n`, with a leading zero only for 0 itself. */
  lemma {:induction false} NatToDigitsValue(n: nat)
    ensures AllDigits(NatToDigits(n)) && DigitsValue(NatToDigits(n)) == n
    ensures NatToDigits(n)[0] == '0' <==> n == 0
    decreases n
  {
    if n >= 10 {
      NatToDigitsValue(n / 10);
      var prefix := NatToDigits(n / 10);
      var r := NatToDigits(n);
      assert r == prefix + [DigitChar(n % 10)];
      assert r[..|r| - 1] == prefix;
    }
  }

  /** `s.PadLeft(width, fill)`: right-aligns `s`, never truncates. */
  function PadLeft(s: string, width: nat, fill: char): (r: string)
    ensures |r| == if |s| < width then width else |s|
    ensures r[|r| - |s|..] == s
    ensures forall i | 0 <= i < |r| - |s| :: r[i] == fill
  {
    if |s| < width then seq(width - |s|, _ => fill) + s else s
  }

  /** The integer converter's encoding: decimal text left-padded with '0' to `width`. */
  function FormatNat(n: nat, width: nat): (r: string)
    ensures AllDigits(r) && 1 <= |r| && width <= |r|
  {
    NatToDigitsValue(n);
    PadLeft(NatToDigits(n), width, '0')
  }

  /** The integer converter's decoding: one or more decimal digits, nothing else. */
  function ParseNat(s: string): (r: Option<nat>)
    ensures r.Some? <==> 1 <= |s| && AllDigits(s)
    ensures r.Some? ==> r.value < Pow10(|s|)
  {
    if 1 <= |s| && AllDigits(s) then
      ValueBound(s);
      Some(DigitsValue(s))
    else None
  }

  /** The ordinal Pack writes before each field, `k.ToString().PadLeft(2, '0')`: two digits
      below 100 (OrdinalIsPadded shows it is the padded text), the plain text from 100 on. */
  function Ordinal(k: nat): (r: string)
    ensures k < 100 ==> |r| == 2 && AllDigits(r)
  {
    if k < 100 then [DigitChar(k / 10), DigitChar(k % 10)] else NatToDigits(k)
  }

  lemma {:induction false} LeadingZerosValue(k: nat, s: string)
    requires AllDigits(s)
    ensures AllDigits(seq(k, _ => '0') + s)
    ensures DigitsValue(seq(k, _ => '0') + s) == DigitsValue(s)
    decreases |s|, k
  {
    var z := seq(k, _ => '0');
    if s == [] {
      assert z + s == z;
      if k > 0 {
        assert z[..k - 1] == seq(k - 1, _ => '0');
        LeadingZerosValue(k - 1, []);
        assert seq(k - 1, _ => '0') + [] == seq(k - 1, _ => '0');
      }
    } else {
      var t := z + s;
      assert t[..|t| - 1] == z + s[..|s| - 1];
      LeadingZerosValue(k, s[..|s| - 1]);
    }
  }

  lemma {:induction false} ValueBound(s: string)
    requires AllDigits(s)
    ensures DigitsValue(s) < Pow10(|s|)
    decreases |s|
  {
    if s != [] {
      ValueBound(s[..|s| - 1]);
    }
  }

  /** Equal-width digit strings with the same value are the same string. */
  lemma {:induction false} DigitsInjective(a: string, b: string)
    requires AllDigits(a) && AllDigits(b) && |a| == |b|
    requires DigitsValue(a) == DigitsValue(b)
    ensures a == b
    decreases |a|
  {
    if a != [] {
      var n := |a| - 1;
      var da := a[n] as int - '0' as int;
      var db := b[n] as int - '0' as int;
      assert 10 * DigitsValue(a[..n]) + da == 10 * DigitsValue(b[..n]) + db;
      assert da == db;
      DigitsInjective(a[..n], b[..n]);
      assert a == a[..n] + [a[n]] && b == b[..n] + [b[n]];
    }
  }

  lemma {:induction false} DigitCount(n: nat, w: nat)
    requires 1 <= w && n < Pow10(w)
    ensures |NatToDigits(n)| <= w
    decreases n
  {
    if n >= 10 {
      assert w >= 2;
      assert n / 10 < Pow10(w - 1);
      DigitCount(n / 10, w - 1);
    }
  }

  /** Decoding what the integer converter wrote gives the number back, whatever the width. */
  lemma ParseFormat(n: nat, width: nat)
    ensures ParseNat(FormatNat(n, width)) == Some(n)
  {
    NatToDigitsValue(n);
    var d := NatToDigits(n);
    var r := FormatNat(n, width);
    if |d| < width {
      LeadingZerosValue(width - |d|, d);
    }
  }

  /** A number narrower than the field fills it exactly. */
  lemma FormatWidth(n: nat, width: nat)
    requires 1 <= width && n < Pow10(width)
    ensures |FormatNat(n, width)| == width
  {
    DigitCount(n, width);
  }

  /** A field of digits is exactly what the converter writes for its value at its width. */
  lemma FormatParse(s: string)
    requires 1 <= |s| && AllDigits(s)
    ensures ParseNat(s).Some? && FormatNat(ParseNat(s).value, |s|) == s
  {
    var v := DigitsValue(s);
    ValueBound(s);
    DigitCount(v, |s|);
    NatToDigitsValue(v);
    var d := NatToDigits(v);
    var r := FormatNat(v, |s|);
    if |d| < |s| {
      var z := seq(|s| - |d|, _ => '0');
      assert r == z + d;
      LeadingZerosValue(|s| - |d|, d);
      DigitsInjective(z + d, s);
    } else {
      assert r == d;
      DigitsInjective(d, s);
    }
  }

  lemma PaddingExample()
    ensures FormatNat(12, 4) == "0012" && ParseNat("0012") == Some(12)
  {
    assert NatToDigits(12) == "12";
    assert seq(2, _ => '0') == "00";
    assert DigitsValue("0012") == 12 by {
      assert "0012"[..3] == "001" && "001"[..2] == "00" && "00"[..1] == "0" && "0"[..0] == "";
    }
  }

  /** The ordinal is the integer converter's text of `k` at width 2. */
  lemma OrdinalIsPadded(k: nat)
    ensures Ordinal(k) == FormatNat(k, 2)
  {
    if k < 100 {
      OrdinalDigits(k);
      FormatParse(Ordinal(k));
    } else {
      assert Pow10(2) == 100;
      NatToDigitsValue(k);
      ValueBound(NatToDigits(k));
    }
  }

  lemma OrdinalDigits(k: nat)
    requires k < 100
    ensures |Ordinal(k)| == 2 && AllDigits(Ordinal(k)) && DigitsValue(Ordinal(k)) == k
  {
    var hi, lo := DigitChar(k / 10), DigitChar(k % 10);
    var s := Ordinal(k);
    assert s == [hi, lo];
    assert s[..1] == [hi] && [hi][..0] == [];
    assert DigitsValue([hi]) == k / 10;
    assert DigitsValue(s) == 10 * DigitsValue([hi]) + k % 10;
  }

  lemma OrdinalWidth(k: nat)
    requires k < 100
    ensures |Ordinal(k)| == 2 && AllDigits(Ordinal(k)) && ParseNat(Ordinal(k)) == Some(k)
  {
    OrdinalDigits(k);
  }

  // ASCII bytes of a text package

  newtype byte = b: int | 0 <= b < 256

  predicate IsAscii(s: string) { forall i | 0 <= i < |s| :: s[i] as int < 128 }

  function AsciiBytes(s: string): (bytes: seq<byte>)
    requires IsAscii(s)
    ensures |bytes| == |s|
  {
    seq(|s|, i requires 0 <= i < |s| => s[i] as int as byte)
  }

  function AsciiText(bytes: seq<byte>): (s: string)
    ensures |s| == |bytes|
  {
    seq(|bytes|, i requires 0 <= i < |bytes| => bytes[i] as int as char)
  }

  lemma AsciiRoundTrip(s: string)
    requires IsAscii(s)
    ensures AsciiText(AsciiBytes(s)) == s
  {
  }
}
